=== FILE: README.md ===
# html2docx structured-content composer, in Dafny

This project models the part of `Html2Docx::Word::WordDocument` that turns Ruby
content values into WordprocessingML markup. The modelled code is `lib/word/word_document.rb`:

- `create_body_fragments` and `create_multiple_fragments` dispatch on the kind of value.
  The kinds are `nil`, a string, another scalar, a hash with `:content`, an array, a
  column hash, an image and a Nokogiri element.
- `create_paragraph_fragment` builds a paragraph for a string or a styled hash.
- `create_table_fragment` builds a table from a column hash. It works out the row
  count, and emits the grid, the header row and one data row per index.
- `create_table_cell_fragment` chooses the value for a cell and makes sure the cell
  ends in a paragraph.
- `create_table_fragment_from_html` is modelled from the point where the header and
  body texts have been taken out of the HTML.
- `create_page_break_fragment` and `create_word_break_fragment` return constant fragments.
- The type dispatch of `replace_all`, including what happens when the same
  replacement is rendered once per occurrence.

Every builder is a pure function over immutable datatypes (`Content.ContentValue`,
`Content.TableOptions`) that returns `seq<char>` markup. The two places where the
Ruby code raises are modelled as `Result` errors:

- a hash that is neither a table nor a `:content` hash, reached in paragraph position;
- a non-table element used as a table cell.

Decoders are the partners of the builders: paragraph fragments, the table grid and the
header row are read back, and read-back lemmas show that these parts keep all of their
input. Data rows are not decoded. Instead, lemmas state what each data cell holds. The
cell merge deliberately removes paragraph boundaries, so a cell cannot always be read
back as the paragraphs it was built from.
The `gsub("</w:p><w:p>", "")` applied to every table cell is modelled as a
left-to-right scan (`ParagraphMerge.MergeParagraphs`). It is characterised by a fixpoint
lemma, and by lemmas showing what it does to each kind of cell.

Modules, in dependency order: `Results`, `Xml` (escaping, prefixes, joins, decoding
helpers), `ParagraphMerge`, `Content`, `Fragments`, `Tables` (option resolution and the
table skeleton), `MarkupMerge`, `Composer` (the mutually recursive builders),
`Dispatch`, `CellLayout`, `TableLayout`, `HtmlTables` and `Replace`.

## Model

| member | source | states |
|---|---|---|
| Xml.Escape | lib/word/word_document.rb:441 | the escaped text contains no `<` and no `"`, so it cannot end a `<w:t>` element or an attribute |
| Xml.EscapeRoundTrip | lib/word/word_document.rb:441 | escaping loses nothing: unescaping the markup gives back the original text |
| Xml.JoinAppend | lib/word/word_document.rb:393 | joining the fragments of two lists is joining each list and concatenating |
| ParagraphMerge.MergeParagraphs | lib/word/word_document.rb:274 | the merge never lengthens a cell |
| ParagraphMerge.MergeFixpoint | lib/word/word_document.rb:274 | the merge leaves a cell unchanged exactly when no `</w:p><w:p>` occurs in it |
| ParagraphMerge.MergePlainPrefix | lib/word/word_document.rb:274 | text without `<` passes through the merge unchanged and does not disturb what follows |
| ParagraphMerge.MergeKeepsCellEnd | lib/word/word_document.rb:274 | merging never removes the paragraph right before `</w:tc>` |
| Content.StyledColumns | lib/word/word_document.rb:194-202 | a styled hash made into a table has a `content` column holding its text and, when the key is present, a `style` column holding the style name or `nil`; the columns follow the hash's insertion order, and every entry renders as a cell |
| Content.RowCount | lib/word/word_document.rb:267 | the row count bounds every column's length (array length, 0 for `nil`, 1 otherwise) and equals one of them, or 0 |
| Content.CellItem | lib/word/word_document.rb:384-391 | row `i` of an array column gets element `i`, or `""` past the end; a non-array value lands in row 0 only, and `nil` gives `""` |
| Content.ColumnsOkByRows | lib/word/word_document.rb:267-277 | every column entry renders as a cell exactly when every cell the row loop visits renders |
| Content.TextColumnsOk | lib/word/word_document.rb:194-202 | columns of plain strings always render |
| Fragments.ParagraphFragment | lib/word/word_document.rb:420-429 | a paragraph fragment starts with `<w:p>` and ends with `</w:p>` |
| Fragments.ParagraphRoundTrip | lib/word/word_document.rb:420-429 | a paragraph for a string or styled hash reads back as exactly one run with the original text (character style only for the hash), and has a paragraph style exactly when one was given |
| Fragments.PageBreakFragment | lib/word/word_document.rb:446-449 | the page break is a paragraph around one run |
| Fragments.PageBreakHasNoText | lib/word/word_document.rb:446-449 | the page-break run holds no text, so it does not read back as a text paragraph |
| Fragments.WordBreakFragment | lib/word/word_document.rb:455-457 | the word break is a bare run, not a paragraph |
| Tables.ResolveSettings | lib/word/word_document.rb:235-247 | a `TableProperties` object wins over the separate options; otherwise one is built from them; widths and styles are read independently |
| Tables.HtmlSettings | lib/word/word_document.rb:333-345 | HTML option resolution as written: given widths are kept and the styles dropped; without widths, the styles are used both as widths and as styles |
| Tables.HtmlSettingsAgree | lib/word/word_document.rb:336-341 | the HTML resolution agrees with `create_table_fragment`'s exactly when no column styles are given |
| Tables.RenderTable | lib/word/word_document.rb:248-280 | a table starts with `<w:tbl>` and the printed properties, and ends with `</w:tbl>` |
| Tables.GridRoundTrip | lib/word/word_document.rb:250-256 | the grid reads back as exactly the widths, in order, and is absent exactly when no widths are given |
| Tables.HeaderRowRoundTrip | lib/word/word_document.rb:258-265 | a header row reads back as exactly its header texts, in order, one escaped cell each |
| Tables.AfterGridNotGrid | lib/word/word_document.rb:258-280 | the markup after the grid never starts another grid |
| Tables.MarkupReadsBack | lib/word/word_document.rb:248-280 | a table reads back as its grid, then its header texts when it has one header row, then the data rows |
| MarkupMerge.MergedCellShape | lib/word/word_document.rb:274 | the merge keeps `<w:tc>`, the width properties and the closing paragraph of a cell |
| Composer.BodyFragments | lib/word/word_document.rb:189-216 | rendering succeeds exactly when every hash reached is a table or has `:content`; anything but an array gives exactly one fragment |
| Composer.MultipleFragments | lib/word/word_document.rb:405-407 | a list renders exactly when each element renders without options |
| Composer.CellFragment | lib/word/word_document.rb:383-403 | a cell renders exactly when its item does and is not a bare element; it starts with `<w:tc>` and its `tcPr`, and ends in a paragraph before `</w:tc>` |
| Composer.CloseWithParagraph | lib/word/word_document.rb:395 | cell content ends in a paragraph afterwards; it is unchanged exactly when it already ended in one, and otherwise gets `<w:p/>` appended |
| Composer.WrapCell | lib/word/word_document.rb:396-401 | the cell starts with `<w:tc>` and its `tcPr`, and ends in a paragraph |
| Composer.TableCell | lib/word/word_document.rb:270-274 | a merged cell renders exactly when its entry does; it keeps `<w:tc>`, its closing paragraph and its width properties |
| Composer.RowCells | lib/word/word_document.rb:268-277 | a row renders exactly when each of its cells does, and has one cell per column |
| Composer.DataRows | lib/word/word_document.rb:267-277 | the data rows render exactly when each row does; there are as many as requested |
| Composer.DataRowsContent | lib/word/word_document.rb:267-277 | data row `k` holds the cells of index `k`, left to right |
| Composer.TableMarkupOf | lib/word/word_document.rb:235-277 | the layout has the printed properties, the widths as grid, the keys as header unless skipped, and one row per index up to the row count |
| Composer.TableFragment | lib/word/word_document.rb:231-281 | an empty hash gives `""`; any other hash gives `<w:tbl>`, the properties, ..., `</w:tbl>`; it fails exactly when some entry cannot be a cell |
| Dispatch.RunLikeFragment | lib/word/word_document.rb:214-215 | `nil`, scalars and styled hashes give exactly one paragraph; `nil` gives an empty one and is never dropped |
| Dispatch.RunLikeParagraph | lib/word/word_document.rb:420-442 | for character and paragraph styles without `"`, that paragraph reads back as the value's text, styled only for a styled hash, with the paragraph style exactly when one was given |
| Dispatch.ImageFragment | lib/word/word_document.rb:191-192 | an image gives exactly one paragraph, which wraps exactly the image run |
| Dispatch.RawFragment | lib/word/word_document.rb:208-213 | an element is emitted verbatim |
| Dispatch.ColumnsFragment | lib/word/word_document.rb:193-205 | a column hash gives exactly one table when `:create_table` is on the hash or in the options, and fails otherwise |
| Dispatch.StyledTable | lib/word/word_document.rb:193-202 | a styled hash under `:create_table` becomes one table, not a paragraph |
| Dispatch.StyledParagraph | lib/word/word_document.rb:203-204 | a styled hash without `:create_table` becomes one paragraph, not a table |
| Dispatch.SeqIgnoresOptions | lib/word/word_document.rb:206-207 | the options given with an array do not reach its elements |
| Dispatch.MultipleSingle | lib/word/word_document.rb:405-407 | a one-element list renders as its element without options |
| Dispatch.MultipleAppend | lib/word/word_document.rb:405-407 | a list renders as the in-order concatenation of its parts' fragments, and fails exactly when a part fails |
| CellLayout.RunLikeCell | lib/word/word_document.rb:393-401 | a string, scalar or styled-hash cell is its one paragraph, with the column's style, between the cell tags; no `<w:p/>` is added |
| CellLayout.RunLikeCellMerged | lib/word/word_document.rb:274 | for a run style, paragraph style and width without `<`, the merge leaves such a cell unchanged |
| CellLayout.EmptyListCell | lib/word/word_document.rb:393-395 | a cell whose item is an empty array holds only `<w:p/>` |
| CellLayout.TableEndIsNotParagraph | lib/word/word_document.rb:395 | content ending in `</w:tbl>` gets `<w:p/>` appended |
| CellLayout.NestedTableCell | lib/word/word_document.rb:393-401 | a cell holding a nested table is the table followed by `<w:p/>` |
| CellLayout.RunListFragments | lib/word/word_document.rb:405-407 | an array of strings and styled hashes renders as one paragraph per element, in order |
| CellLayout.ParagraphsEnd | lib/word/word_document.rb:395 | such a list's markup ends in `</w:p>`, so no `<w:p/>` is added |
| CellLayout.CollapsedCell | lib/word/word_document.rb:393-401 | for run styles and a width without `<`, after the merge, a cell holding such an array is one paragraph with one run per element, in order |
| TableLayout.EmptyTable | lib/word/word_document.rb:232-233 | an empty hash renders as `""`, whatever the options |
| TableLayout.TableRows | lib/word/word_document.rb:267-268 | there is one data row per index up to the row count |
| TableLayout.TableFragmentLayout | lib/word/word_document.rb:231-281 | a non-empty hash renders as the table of the resolved properties, widths and header, and its data rows |
| TableLayout.RowCellsContent | lib/word/word_document.rb:268-277 | the first `j` cells of a row are the cells for columns `0` to `j - 1`, in order, and each of them renders |
| TableLayout.DataRowLayout | lib/word/word_document.rb:268-277 | data row `k` has one cell per column, in key order, and cell `j` is the merged cell for entry `k` of column `j` |
| TableLayout.DataCellShape | lib/word/word_document.rb:270-274 | each data cell starts with `<w:tc>`, carries a `tcPr` exactly when the widths list has a non-`nil` entry for its column, and ends in a paragraph |
| TableLayout.TableReadsBack | lib/word/word_document.rb:248-265 | the grid reads back as exactly the resolved widths as printed (`""` for a `nil` entry); the header row reads back as exactly the keys unless `:skip_header`, in which case the data rows follow the grid directly |
| TableLayout.RowCountExample | test/test_word_documents.rb:180 | the test's five columns (two arrays of 3, `nil`, an empty array, a string) give 3 rows |
| HtmlTables.HtmlCell | lib/word/word_document.rb:371-374 | an HTML body cell keeps `<w:tc>`, its width properties and a closing paragraph |
| HtmlTables.HtmlMarkup | lib/word/word_document.rb:356-377 | one header row per `thead` row unless skipped; one data row per `tbody` row, with one cell per `td` |
| HtmlTables.HtmlTableWith | lib/word/word_document.rb:346-380 | no table gives `""`; a table gives `<w:tbl>`, the properties, ..., `</w:tbl>`, even with no rows |
| HtmlTables.HtmlTableAsWritten | lib/word/word_document.rb:283-381 | the same, with the options resolved as the code does |
| HtmlTables.HtmlTable | lib/word/word_document.rb:283-381 | the same, with the options resolved as `create_table_fragment` does |
| HtmlTables.HtmlCellShape | lib/word/word_document.rb:371-374 | an HTML body cell is exactly one paragraph of its text, with the column's style, under the column's width |
| HtmlTables.HtmlCellReadsBack | lib/word/word_document.rb:371-374 | for a width and style without `<` and a style without `"`, that paragraph reads back as the cell's text and the column's style |
| HtmlTables.HtmlDataCell | lib/word/word_document.rb:368-377 | data row `k`, cell `j` is the cell for body entry `k`, `j` |
| HtmlTables.HtmlReadsBack | lib/word/word_document.rb:346-380 | an HTML table reads back as its grid, then its header texts (one header row, not skipped), then the data rows |
| HtmlTables.HtmlStylesInGrid | lib/word/word_document.rb:336-374 | as written, with only `:column_styles`, the grid reads back as the style names when none holds `"` (where the options resolve to no widths), and every cell whose column's style name has no `<` carries it both as its `tcW` width and as its paragraph style |
| HtmlTables.HtmlStylesDropped | lib/word/word_document.rb:336-374 | as written, with `:column_widths` and `:column_styles`, every cell keeps its width and its paragraph has no style, although the options resolve to those styles |
| HtmlTables.HtmlTableIntended | lib/word/word_document.rb:336-377 | as intended, the grid reads back as exactly the resolved widths, and each body cell holds its text with the column's resolved style under its resolved width |
| HtmlTables.HtmlStylesKept | lib/word/word_document.rb:336-374 | as intended, with only `:column_styles` there is no grid, no cell carries a `tcPr`, and each cell's paragraph has its column's style |
| HtmlTables.HtmlWidthsAndStylesKept | lib/word/word_document.rb:336-374 | as intended, with widths and styles every cell carries its column's width and its paragraph its column's style |
| Replace.ReplaceAction | lib/word/word_document.rb:165-187 | a string replaces in place; an image or a non-table element becomes a run; everything else becomes body fragments, which render exactly when the value does (hashes with `:create_table`) |
| Replace.ReplaceImage | lib/word/word_document.rb:170-191 | an image replaces by its bare run, while in body position it is wrapped in a paragraph |
| Replace.ReplaceColumns | lib/word/word_document.rb:173-175 | a column hash always becomes one table with its own options, empty exactly for the empty hash |
| Replace.ReplaceStyled | lib/word/word_document.rb:173-175 | a `:content` hash becomes a table too, not a paragraph; the table has no grid, and its header reads back as `content` and `style` in the hash's key order |
| Replace.ReplaceOther | lib/word/word_document.rb:183-185 | `nil` and scalars become one paragraph, and arrays are rendered element by element |
| Replace.ReplaceHashInArray | lib/word/word_document.rb:183-185 | a column hash without its own `:create_table` becomes a table alone, but makes an array replacement fail |
| Replace.Rendered | lib/word/word_document.rb:194-201 | a styled hash rendered in paragraph position is left an empty hash; a hash rendered as a table (by its own `:create_table` or the caller's) loses the flag and every table option, keeps its keys in order, and has each entry rendered as a cell is, without options; array elements are rendered without options; other values are unchanged |
| Replace.RenderedIdempotent | lib/word/word_document.rb:194-201 | rendering what a rendering left behind changes nothing more, and a hash stays a hash, so a later occurrence renders with the same `:create_table` |
| Replace.ReplaceAllAsWritten | lib/word/word_document.rb:173-175 | as written, occurrences are rendered in order until one raises: the first is replaced by the caller's value and every later one by what the first rendering left behind; no occurrence before the last one reached fails, and the call ends early only at a failing occurrence |
| Replace.SecondOccurrenceFails | lib/word/word_document.rb:173-175 | as written, a table with a styled hash in a cell replaces its first occurrence, fails on the second, and never reaches a third |
| Replace.SecondOccurrenceGetsHeader | lib/word/word_document.rb:194-202 | as written, the second occurrence of a table of strings is built with none of the caller's table options, so a `:skip_header` table gets its header row back |
| Replace.HeaderOnlyOnSecond | lib/word/word_document.rb:258-265 | so the second occurrence has the header row `a` and the first does not |
| Replace.ReplaceAll | lib/word/word_document.rb:173-175 | as intended, there is one replacement per occurrence |
| Replace.ReplaceAllUniform | lib/word/word_document.rb:173-175 | as intended, every occurrence is replaced alike and succeeds exactly when the value renders |

## Left out

- File and package I/O (`initialize`, `blank_document`, `from_data`): these are storage plumbing over a `Package` class that is not part of this model.
- MathML to OMML conversion and `add_math`: an external XSLT transform.
- Image part creation (`create_image_run_fragment`): it registers parts and relationships in classes that are not part of this model. An image is represented by one fixed run.
- Replace.ReplaceAll: every occurrence of an image replacement gets the same run. In the source, each call of `create_image_run_fragment` (line 172) adds a new media part, so each occurrence gets its own part identifier and relationship id. The same holds for `Replace.ReplaceAllAsWritten` and for images rendered in body position. The identifiers come from the package, which is not part of this model.
- A hash with a `:content` string and keys other than `:style` can only be written as a column hash (`Content.ContentValue`). That is right in table position. In paragraph position the source renders it as a styled run and ignores the other keys, where the model reports a missing `:content`.
- `TableProperties#to_s`: that class is not part of this model. The printed properties come from a `Renderer` parameter, and every lemma holds for every renderer.
- The HTML parsing in `create_table_fragment_from_html` (finding the `table`, `thead`, `tbody`, `th` and `td` elements). The model starts from the extracted texts (`HtmlTables.HtmlInput`). The width inference multiplying `width` by 15 is left out because its result is never used: the logical or continues onto the next line past the comment.
- The array branch of `create_paragraph_fragment`: it cannot be reached, because arrays are sent to `create_multiple_fragments` first. Arrays in cells are modelled through that path (`CellLayout.CollapsedCell`).
- The destructive `delete` calls on option hashes are modelled by immutable option records. Their effect on the caller's replacement value across occurrences is modelled separately (`Replace.Rendered`). The same value rendered twice within one call is not modelled: contents are values, not shared objects.
- Finding the occurrences of the source text, run splitting, and editing the document (`replace_all_with_text`, `replace_all_with_empty_runs`, `replace_with_run_fragment`, `replace_with_body_fragments`, `plain_text`): these live in classes that are not part of this model. The model stops at the replacement each occurrence receives.
- `add_heading`, `add_sub_heading`, `add_paragraph`, `add_image`, `add_table`, `add_table_from_html`, `add_page_break` and `debug_dump`: these operate on document objects that are not part of this model.
- Xml.Escape: Nokogiri's `encode_special_chars` is modelled by the libxml2 rule it calls, which encodes `<`, `>`, `&`, `"` and carriage return. Other characters and encodings are not modelled. The conversion to a C string that Nokogiri performs first raises on a string holding a NUL character. The model escapes such a string like any other.
- Composer.BodyFragments: text, styled content, or a header key that is printed, holding a NUL character makes the source raise, at lines 261 and 429-441. The model renders it, so the "renders exactly when" contracts of `Composer.BodyFragments`, `Composer.CellFragment` and `Composer.TableFragment` do not cover that input. The HTML builder at lines 360 and 371 has the same gap. Modelling it would give that builder an error result, which it does not have here.
- Fragments.ParagraphRoundTrip: stated only for styles without `"`, because styles are written into an attribute unescaped. A style containing `"` produces markup that no reader can split back.
- Tables.MarkupReadsBack: the header is read back only for tables with at most one header row. The HTML builder can emit several header rows, and an empty data row reads the same as an empty header row.
- HtmlTables.HtmlCellShape: stated for widths and styles without `<`. A width or style holding `</w:p><w:p>` would be cut by the cell merge.
- Composer.TableCell: the width part of the contract is stated only for widths without `<`, for the same reason.
- Dispatch.RunLikeParagraph: stated only for character and paragraph styles without `"`. Styles are written unescaped into `w:val` (lines 424 and 429), so a style holding `"` produces markup that cannot be split back.
- CellLayout.RunLikeCellMerged: stated only for character styles, paragraph styles and widths without `<`. Styles and widths are written unescaped (lines 398, 424 and 429), and a value holding `</w:p><w:p>` would be cut by the merge at line 274.
- CellLayout.CollapsedCell: stated only for character styles and widths without `<`, for the same reason as `CellLayout.RunLikeCellMerged`.
- HtmlTables.HtmlCellReadsBack: stated only for widths and styles without `<`, and styles without `"`. Both are written unescaped, so the merge at line 274 could cut the cell, and a `"` cannot be split back.
- HtmlTables.HtmlStylesInGrid: the grid clause is stated only for style names without `"`, and the cell clause only for columns whose style name has no `<`, for the same reasons.

## Findings

| source | as written | input that shows it | evidently intended | confidence | as-written member | corrected member |
|---|---|---|---|---|---|---|
| lib/word/word_document.rb:336-341 | the logical or after `column_widths =` continues past the comment onto the next line, so the line reads as widths or (`column_styles =` styles). Styles are only read when there are no widths, and then they become the widths too | `create_table_fragment_from_html(html, :column_styles => ["Heading1"])`: the grid and every first-column `tcW` read `Heading1`; with `:column_widths` as well, the styles are dropped | widths and styles read independently, as in `create_table_fragment` | not executed | HtmlTables.HtmlTableAsWritten (HtmlTables.HtmlStylesInGrid, HtmlTables.HtmlStylesDropped) | HtmlTables.HtmlTable (HtmlTables.HtmlTableIntended, HtmlTables.HtmlStylesKept, HtmlTables.HtmlWidthsAndStylesKept) |
| lib/word/word_document.rb:173-175 | `replace_all` renders the caller's hash again for each occurrence. The first rendering deletes `:create_table` and the table options from it, and `:content` and `:style` from hashes in its cells | a hash `{:a => [{:content => "x", :style => "S"}]}` with two occurrences: the first is replaced, the second raises on an empty hash and later ones are not reached; `{:a => "1", :skip_header => true}` gets a header row on the second occurrence | every occurrence replaced by the same rendering of the caller's value | not executed | Replace.ReplaceAllAsWritten (Replace.SecondOccurrenceFails, Replace.SecondOccurrenceGetsHeader) | Replace.ReplaceAll (Replace.ReplaceAllUniform) |

=== FILE: cells.dfy ===
/** The shape of table cells (`create_table_cell_fragment` followed by the paragraph
    merge the table builders apply): when the empty paragraph is added, and how a
    list of runs collapses into a single paragraph. */
module CellLayout {
  import opened Results
  import opened Xml
  import opened Content
  import opened Fragments
  import opened Tables
  import opened ParagraphMerge
  import opened MarkupMerge
  import opened Composer
  import opened Dispatch

  /** A run-like cell item ends in its paragraph, so no empty paragraph is added: the
      cell is exactly the paragraph, with the column's style, between the cell tags. */
  lemma RunLikeCell(value: ContentValue, index: nat, width: Option<string>, style: Option<string>, render: Renderer)
    requires RunLike(CellItem(value, index))
    ensures CellFragment(value, index, width, style, render)
      == Ok(CellOpen + CellProperties(width) + ParagraphFragment(RunOf(CellItem(value, index)), style) + CellClose)
  {
    var item := CellItem(value, index);
    RunLikeFragment(item, BodyOptions(false, style), render);
  }

  /** ... and the merge leaves such a cell as it is, since it holds a single paragraph. */
  lemma RunLikeCellMerged(value: ContentValue, index: nat, width: Option<string>, style: Option<string>, render: Renderer)
    requires RunLike(CellItem(value, index)) && RunTagFree(RunOf(CellItem(value, index)))
    requires StyleTagFree(width) && StyleTagFree(style)
    ensures var cell := CellFragment(value, index, width, style, render).value;
      MergeParagraphs(cell) == cell
  {
    RunLikeCell(value, index, width, style, render);
    MergedRunCell(RunOf(CellItem(value, index)), width, style);
  }

  /** A cell holding one paragraph with a run is a fixed point of the merge. */
  lemma MergedRunCell(run: Run, width: Option<string>, style: Option<string>)
    requires RunTagFree(run) && StyleTagFree(width) && StyleTagFree(style)
    ensures var cell := CellOpen + CellProperties(width) + ParagraphFragment(run, style) + CellClose;
      MergeParagraphs(cell) == cell
  {
    var head := CellOpen + CellProperties(width);
    var paragraphHead := ParagraphOpen + ParagraphProperties(style);
    assert head + ParagraphFragment(run, style) + CellClose
      == head + (paragraphHead + (RunFragment(run) + (ParagraphClose + CellClose))) by {
      RegroupRunCell(head, ParagraphOpen, ParagraphProperties(style), RunFragment(run), ParagraphClose, CellClose);
    }
    assert MergeParagraphs(ParagraphClose + CellClose) == ParagraphClose + CellClose by {
      assert ParagraphClose + CellClose == ClosedParagraphCellEnd;
      MergeCellEnd(ClosedParagraphCellEnd);
    }
    InertCellHead(width);
    InertParagraphHead(style);
    InertRun(run);
    MergeUnderInert(head, paragraphHead, RunFragment(run), ParagraphClose + CellClose);
  }

  lemma RegroupRunCell(head: string, open: string, props: string, run: string, close: string, cellClose: string)
    ensures head + (open + props + run + close) + cellClose == head + ((open + props) + (run + (close + cellClose)))
  {
  }

  /** Three inert pieces in front of a fixed point of the merge are left as they are. */
  lemma MergeUnderInert(a: string, b: string, c: string, tail: string)
    requires Inert(a) && Inert(b) && Inert(c) && MergeParagraphs(tail) == tail
    ensures MergeParagraphs(a + (b + (c + tail))) == a + (b + (c + tail))
  {
    assert MergeParagraphs(a + (b + (c + tail))) == a + MergeParagraphs(b + (c + tail));
    assert MergeParagraphs(b + (c + tail)) == b + MergeParagraphs(c + tail);
  }

  /** The cell around the fragments its item renders to. */
  lemma CellOfFragments(value: ContentValue, index: nat, width: Option<string>, style: Option<string>, render: Renderer, fragments: seq<string>)
    requires !(CellItem(value, index).Raw? && !CellItem(value, index).isTable)
    requires BodyFragments(CellItem(value, index), BodyOptions(false, style), render) == Ok(fragments)
    ensures CellFragment(value, index, width, style, render)
      == Ok(CellOpen + CellProperties(width) + CloseWithParagraph(Join(fragments)) + CellClose)
  {
  }

  /** A cell whose item is an empty list holds only the empty paragraph. */
  lemma EmptyListCell(value: ContentValue, index: nat, width: Option<string>, style: Option<string>, render: Renderer)
    requires CellItem(value, index) == Seq([])
    ensures CellFragment(value, index, width, style, render) == Ok(CellOpen + CellProperties(width) + EmptyParagraph + CellClose)
  {
    assert MultipleFragments([], render) == Ok([]);
    CellOfFragments(value, index, width, style, render, []);
    assert !EndsWith("", EmptyParagraph) && !EndsWith("", ParagraphClose);
    assert "" + EmptyParagraph == EmptyParagraph;
  }

  lemma TableEndIsNotParagraph(table: string)
    requires EndsWith(table, TableClose)
    ensures CloseWithParagraph(table) == table + EmptyParagraph
  {
    assert table[|table| - 2] == 'l';
    assert |table| < |EmptyParagraph| || table[|table| - |EmptyParagraph|..][|EmptyParagraph| - 2] != EmptyParagraph[|EmptyParagraph| - 2];
    assert |table| < |ParagraphClose| || table[|table| - |ParagraphClose|..][|ParagraphClose| - 2] != ParagraphClose[|ParagraphClose| - 2];
  }

  /** A nested table does not end in a paragraph, so the empty paragraph follows it. */
  lemma NestedTableCell(value: ContentValue, index: nat, width: Option<string>, style: Option<string>, render: Renderer)
    requires CellItem(value, index).Columns? && CellItem(value, index).createTable
    requires CellItem(value, index).columns != [] && ColumnsOk(CellItem(value, index).columns)
    ensures var item := CellItem(value, index);
      CellFragment(value, index, width, style, render)
        == Ok(CellOpen + CellProperties(width) + TableFragment(item.columns, item.options, render).value + EmptyParagraph + CellClose)
  {
    var item := CellItem(value, index);
    var table := TableFragment(item.columns, item.options, render).value;
    var head := CellOpen + CellProperties(width);
    assert BodyFragments(item, BodyOptions(false, style), render) == Ok([table]);
    CellOfFragments(value, index, width, style, render, [table]);
    assert Join([table]) == table;
    TableEndIsNotParagraph(table);
    assert CellFragment(value, index, width, style, render) == Ok(head + (table + EmptyParagraph) + CellClose);
    RegroupCell(head, table, EmptyParagraph, CellClose);
  }

  lemma RegroupCell(head: string, a: string, b: string, close: string)
    ensures head + (a + b) + close == head + a + b + close
  {
  }

  // A list of runs in one cell

  predicate RunItems(items: seq<ContentValue>) {
    forall k :: 0 <= k < |items| ==> RunLike(items[k]) && RunTagFree(RunOf(items[k]))
  }

  lemma RunItemsTail(items: seq<ContentValue>)
    requires RunItems(items) && items != []
    ensures RunItems(items[1..])
  {
    forall k | 0 <= k < |items| - 1
      ensures RunLike(items[1..][k]) && RunTagFree(RunOf(items[1..][k]))
    {
      assert items[1..][k] == items[k + 1];
    }
  }

  /** The paragraphs the list renders to, one per element, without paragraph style. */
  function ParagraphList(items: seq<ContentValue>): seq<string>
    requires RunItems(items)
  {
    if items == [] then [] else [ParagraphFragment(RunOf(items[0]), None)] + ParagraphList(items[1..])
  }

  function ParagraphsXml(items: seq<ContentValue>): string
    requires RunItems(items)
  {
    if items == [] then "" else ParagraphFragment(RunOf(items[0]), None) + ParagraphsXml(items[1..])
  }

  /** The runs of the elements, one after another. */
  function RunsXml(items: seq<ContentValue>): string
    requires RunItems(items)
  {
    if items == [] then "" else RunFragment(RunOf(items[0])) + RunsXml(items[1..])
  }

  lemma {:induction false} RunListFragments(items: seq<ContentValue>, render: Renderer)
    requires RunItems(items)
    ensures MultipleFragments(items, render) == Ok(ParagraphList(items))
    ensures Join(ParagraphList(items)) == ParagraphsXml(items)
  {
    if items != [] {
      RunListFragments(items[1..], render);
      RunLikeFragment(items[0], NoBodyOptions, render);
    }
  }

  lemma ParagraphsXmlHead(items: seq<ContentValue>)
    requires RunItems(items) && items != []
    ensures ParagraphsXml(items)
      == ParagraphOpen + RunFragment(RunOf(items[0])) + ParagraphClose + ParagraphsXml(items[1..])
  {
    PlainParagraphShape(RunOf(items[0]));
  }

  lemma RegroupBoundary(r0: string, close: string, open: string, r1: string, px: string, cellClose: string)
    ensures r0 + close + (open + r1 + close + px) + cellClose == r0 + ((close + open) + (r1 + close + px + cellClose))
  {
  }

  /** The merge passes over a run and deletes the boundary after it. */
  lemma MergeAfterRun(run: Run, t: string, merged: string)
    requires RunTagFree(run) && MergeParagraphs(t) == merged
    ensures MergeParagraphs(RunFragment(run) + (ParagraphBoundary + t)) == RunFragment(run) + merged
  {
    InertRun(run);
    MergeBoundary(t);
  }

  /** The last run is followed by the end of the cell, which the merge keeps. */
  lemma MergeLastRun(run: Run)
    requires RunTagFree(run)
    ensures MergeParagraphs(RunFragment(run) + ParagraphClose + "" + CellClose)
      == RunFragment(run) + "" + ParagraphClose + CellClose
  {
    var r0 := RunFragment(run);
    assert MergeParagraphs(ParagraphClose + CellClose) == ParagraphClose + CellClose by {
      assert ParagraphClose + CellClose == ClosedParagraphCellEnd;
      MergeCellEnd(ClosedParagraphCellEnd);
    }
    InertRun(run);
    MergeLastRunGlue(r0, ParagraphClose, CellClose);
  }

  lemma MergeLastRunGlue(r0: string, close: string, cellClose: string)
    requires Inert(r0) && MergeParagraphs(close + cellClose) == close + cellClose
    ensures MergeParagraphs(r0 + close + "" + cellClose) == r0 + "" + close + cellClose
  {
    assert r0 + close + "" + cellClose == r0 + (close + cellClose);
    assert r0 + "" + close + cellClose == r0 + (close + cellClose);
  }

  lemma RegroupRuns(r0: string, runs: string, close: string, cellClose: string)
    ensures r0 + (runs + close + cellClose) == r0 + runs + close + cellClose
  {
  }

  /** Inside the cell, each boundary between two of the paragraphs is removed and the
      runs follow one another. */
  lemma {:induction false} MergeRunParagraphs(items: seq<ContentValue>)
    requires RunItems(items) && items != []
    ensures MergeParagraphs(RunFragment(RunOf(items[0])) + ParagraphClose + ParagraphsXml(items[1..]) + CellClose)
      == RunsXml(items) + ParagraphClose + CellClose
  {
    if |items| == 1 {
      MergeOneRun(items);
    } else {
      MergeRunParagraphs(items[1..]);
      MergeRunStep(items);
    }
  }

  lemma MergeOneRun(items: seq<ContentValue>)
    requires RunItems(items) && |items| == 1
    ensures MergeParagraphs(RunFragment(RunOf(items[0])) + ParagraphClose + ParagraphsXml(items[1..]) + CellClose)
      == RunsXml(items) + ParagraphClose + CellClose
  {
    var r0 := RunFragment(RunOf(items[0]));
    assert RunsXml(items) == r0 + RunsXml(items[1..]);
    assert ParagraphsXml(items[1..]) == "" && RunsXml(items[1..]) == "";
    MergeLastRun(RunOf(items[0]));
  }

  /** One more run in front of a merged list of runs. */
  lemma MergeRunStep(items: seq<ContentValue>)
    requires RunItems(items) && |items| > 1
    requires MergeParagraphs(RunFragment(RunOf(items[1..][0])) + ParagraphClose + ParagraphsXml(items[1..][1..]) + CellClose)
      == RunsXml(items[1..]) + ParagraphClose + CellClose
    ensures MergeParagraphs(RunFragment(RunOf(items[0])) + ParagraphClose + ParagraphsXml(items[1..]) + CellClose)
      == RunsXml(items) + ParagraphClose + CellClose
  {
    var tail := items[1..];
    RunItemsTail(items);
    RunItemsTail(tail);
    var r0 := RunFragment(RunOf(items[0]));
    var rest := RunFragment(RunOf(tail[0])) + ParagraphClose + ParagraphsXml(tail[1..]) + CellClose;
    var merged := RunsXml(tail) + ParagraphClose + CellClose;
    BoundaryAfterRun(items);
    assert RunTagFree(RunOf(items[0]));
    MergeAfterRun(RunOf(items[0]), rest, merged);
    RunsAfterRun(items);
    MergeChain(r0 + ParagraphClose + ParagraphsXml(tail) + CellClose, r0 + (ParagraphBoundary + rest), r0 + merged,
      RunsXml(items) + ParagraphClose + CellClose);
  }

  lemma MergeChain(input: string, a: string, mergedA: string, output: string)
    requires input == a && MergeParagraphs(a) == mergedA && mergedA == output
    ensures MergeParagraphs(input) == output
  {
  }

  /** Before the merge: the first run, a paragraph boundary, and the second run's paragraph on. */
  lemma BoundaryAfterRun(items: seq<ContentValue>)
    requires RunItems(items) && |items| > 1
    ensures RunFragment(RunOf(items[0])) + ParagraphClose + ParagraphsXml(items[1..]) + CellClose
      == RunFragment(RunOf(items[0])) + (ParagraphBoundary
        + (RunFragment(RunOf(items[1..][0])) + ParagraphClose + ParagraphsXml(items[1..][1..]) + CellClose))
  {
    var tail := items[1..];
    RunItemsTail(items);
    RunItemsTail(tail);
    ParagraphsXmlHead(tail);
    assert ParagraphClose + ParagraphOpen == ParagraphBoundary;
    RegroupBoundary(RunFragment(RunOf(items[0])), ParagraphClose, ParagraphOpen, RunFragment(RunOf(tail[0])),
      ParagraphsXml(tail[1..]), CellClose);
  }

  /** After the merge: the first run, then the remaining runs. */
  lemma RunsAfterRun(items: seq<ContentValue>)
    requires RunItems(items) && |items| > 1
    ensures RunFragment(RunOf(items[0])) + (RunsXml(items[1..]) + ParagraphClose + CellClose)
      == RunsXml(items) + ParagraphClose + CellClose
  {
    RunItemsTail(items);
    assert RunsXml(items) == RunFragment(RunOf(items[0])) + RunsXml(items[1..]);
    RegroupRuns(RunFragment(RunOf(items[0])), RunsXml(items[1..]), ParagraphClose, CellClose);
  }

  /** The cell around a non-empty list of runs, before the merge. */
  lemma CollapsedCellXml(value: ContentValue, index: nat, width: Option<string>, style: Option<string>, render: Renderer)
    requires CellItem(value, index).Seq? && CellItem(value, index).items != []
    requires RunItems(CellItem(value, index).items)
    ensures var items := CellItem(value, index).items;
      CellFragment(value, index, width, style, render) == Ok(CellOpen + CellProperties(width)
        + (ParagraphOpen + (RunFragment(RunOf(items[0])) + ParagraphClose + ParagraphsXml(items[1..]) + CellClose)))
  {
    var items := CellItem(value, index).items;
    var xml := ParagraphsXml(items);
    RunListFragments(items, render);
    assert BodyFragments(CellItem(value, index), BodyOptions(false, style), render) == Ok(ParagraphList(items));
    CellOfFragments(value, index, width, style, render, ParagraphList(items));
    assert CloseWithParagraph(xml) == xml by { ParagraphsEnd(items); }
    ParagraphsXmlHead(items);
    RegroupCollapsed(CellOpen + CellProperties(width), ParagraphOpen, RunFragment(RunOf(items[0])), ParagraphClose,
      ParagraphsXml(items[1..]), CellClose);
  }

  /** The merge passes over two inert heads. */
  lemma MergeUnderHeads(head: string, open: string, body: string, merged: string)
    requires Inert(head) && Inert(open) && MergeParagraphs(body) == merged
    ensures MergeParagraphs(head + (open + body)) == head + (open + merged)
  {
    assert MergeParagraphs(head + (open + body)) == head + MergeParagraphs(open + body);
  }

  /** A cell whose item is a list of strings or styled hashes holds one paragraph with
      one run per element, in order: the merge removes every boundary between the
      paragraphs the elements render to. */
  lemma CollapsedCell(value: ContentValue, index: nat, width: Option<string>, style: Option<string>, render: Renderer)
    requires CellItem(value, index).Seq? && CellItem(value, index).items != []
    requires RunItems(CellItem(value, index).items) && StyleTagFree(width)
    ensures CellFragment(value, index, width, style, render).Ok?
    ensures MergeParagraphs(CellFragment(value, index, width, style, render).value)
      == CellOpen + CellProperties(width) + ParagraphOpen + RunsXml(CellItem(value, index).items) + ParagraphClose + CellClose
  {
    CollapsedCellXml(value, index, width, style, render);
    InertCellHead(width);
    InertParagraphOpen();
    var items := CellItem(value, index).items;
    MergeRunParagraphs(items);
    MergeUnderHeads(CellOpen + CellProperties(width), ParagraphOpen,
      RunFragment(RunOf(items[0])) + ParagraphClose + ParagraphsXml(items[1..]) + CellClose,
      RunsXml(items) + ParagraphClose + CellClose);
    RegroupCollapsedResult(CellOpen + CellProperties(width), ParagraphOpen, RunsXml(items), ParagraphClose, CellClose);
  }

  lemma RegroupCollapsed(head: string, open: string, r0: string, close: string, rest: string, cellClose: string)
    ensures head + (open + r0 + close + rest) + cellClose == head + (open + (r0 + close + rest + cellClose))
  {
  }

  lemma RegroupCollapsedResult(head: string, open: string, runs: string, close: string, cellClose: string)
    ensures head + (open + (runs + close + cellClose)) == head + open + runs + close + cellClose
  {
  }

  lemma {:induction false} ParagraphsEnd(items: seq<ContentValue>)
    requires RunItems(items) && items != []
    ensures EndsWith(ParagraphsXml(items), ParagraphClose)
  {
    var first := ParagraphFragment(RunOf(items[0]), None);
    var rest := ParagraphsXml(items[1..]);
    assert ParagraphsXml(items) == first + rest;
    if |items| == 1 {
      assert rest == "" by { assert items[1..] == []; }
      assert first + rest == first;
    } else {
      ParagraphsEnd(items[1..]);
      EndsWithPrepend(first, rest, ParagraphClose);
    }
  }
}

=== FILE: composer.dfy ===
/** The composer: `create_body_fragments`, `create_multiple_fragments`,
    `create_table_cell_fragment` and `create_table_fragment`, one mutually recursive
    group, since a table cell may hold any content value, nested tables included. */
module Composer {
  import opened Results
  import opened Xml
  import opened Content
  import opened Fragments
  import opened Tables
  import opened ParagraphMerge
  import opened MarkupMerge

  /** The printed form of a `TableProperties` object (its `to_s`); that class is not
      part of this model, so every renderer is allowed. */
  type Renderer = TableProperties -> string

  const CellOpen: string := "<w:tc>"
  const CellClose: string := "</w:tc>"
  const EmptyParagraph: string := "<w:p/>"

  /** An image stands alone in a paragraph. */
  function ImageParagraph(run: string): string {
    ParagraphOpen + run + ParagraphClose
  }

  /** `create_body_fragments`: the list of body-level fragments for one content value. */
  function BodyFragments(v: ContentValue, o: BodyOptions, render: Renderer): (r: Result<seq<string>>)
    decreases Size(v), 0
    ensures r.Ok? <==> BodyOk(v, o.createTable)
    ensures r.Ok? && !v.Seq? ==> |r.value| == 1
  {
    match v
    case Image(run) => Ok([ImageParagraph(run)])
    case Styled(content, style) =>
      if o.createTable then
        Ok([TableFragment(StyledColumns(content, style), NoTableOptions, render).value])
      else Ok([ParagraphFragment(StyledRun(content, StyleName(style).GetOr("")), o.paragraphStyle)])
    case Columns(columns, ownFlag, options) =>
      if ownFlag || o.createTable then
        var table :- TableFragment(columns, options, render);
        Ok([table])
      else Err(MissingContent)
    case Seq(items) => MultipleFragments(items, render)
    case Raw(_, xml) => Ok([xml])
    case Nil => Ok([ParagraphFragment(PlainRun(""), o.paragraphStyle)])
    case Text(text) => Ok([ParagraphFragment(PlainRun(text), o.paragraphStyle)])
    case Scalar(repr) => Ok([ParagraphFragment(PlainRun(repr), o.paragraphStyle)])
  }

  /** `create_multiple_fragments`: each element's fragments, in order, rendered
      without any options. */
  function MultipleFragments(items: seq<ContentValue>, render: Renderer): (r: Result<seq<string>>)
    decreases ItemsSize(items), 1
    ensures r.Ok? <==> forall k :: 0 <= k < |items| ==> BodyOk(items[k], false)
  {
    if items == [] then Ok([])
    else
      assert ItemsSize(items) == Size(items[0]) + ItemsSize(items[1..]);
      var head :- BodyFragments(items[0], NoBodyOptions, render);
      var tail :- MultipleFragments(items[1..], render);
      assert forall k :: 1 <= k < |items| ==> items[k] == items[1..][k - 1];
      Ok(head + tail)
  }

  /** `create_table_cell_fragment`: the cell for row `index` of a column. */
  function CellFragment(value: ContentValue, index: nat, width: Option<string>, style: Option<string>, render: Renderer)
    : (r: Result<string>)
    decreases Size(value), 1
    ensures r.Ok? <==> CellOk(CellItem(value, index))
    ensures r.Ok? ==> StartsWith(r.value, CellOpen + CellProperties(width)) && EndsInParagraph(r.value)
  {
    var item := CellItem(value, index);
    if item.Raw? && !item.isTable then Err(BareFragmentInCell)
    else
      var fragments :- BodyFragments(item, BodyOptions(false, style), render);
      Ok(WrapCell(width, CloseWithParagraph(Join(fragments))))
  }

  /** Cell content must end in a paragraph: `<w:p/>` is added unless it already ends
      in `<w:p/>` or `</w:p>`, and nothing is added when it does. */
  function CloseWithParagraph(xml: string): (r: string)
    ensures EndsWith(r, EmptyParagraph) || EndsWith(r, ParagraphClose)
    ensures (EndsWith(xml, EmptyParagraph) || EndsWith(xml, ParagraphClose)) <==> r == xml
    ensures r != xml ==> r == xml + EmptyParagraph
  {
    if EndsWith(xml, EmptyParagraph) || EndsWith(xml, ParagraphClose) then xml
    else
      var r := xml + EmptyParagraph;
      assert r[|r| - |EmptyParagraph|..] == EmptyParagraph;
      r
  }

  /** The cell markup around content that already ends in a paragraph. */
  function WrapCell(width: Option<string>, content: string): (r: string)
    requires EndsWith(content, EmptyParagraph) || EndsWith(content, ParagraphClose)
    ensures StartsWith(r, CellOpen + CellProperties(width)) && EndsInParagraph(r)
  {
    WrapCellShape(CellOpen + CellProperties(width), content);
    CellOpen + CellProperties(width) + content + CellClose
  }

  lemma WrapCellShape(head: string, content: string)
    requires EndsWith(content, EmptyParagraph) || EndsWith(content, ParagraphClose)
    ensures StartsWith(head + content + CellClose, head) && EndsInParagraph(head + content + CellClose)
  {
    StartsWithConcat(head, content + CellClose);
    assert head + (content + CellClose) == head + content + CellClose;
    if EndsWith(content, EmptyParagraph) {
      EndsWithConcat(head, content, EmptyParagraph, CellClose);
      assert EmptyParagraph + CellClose == EmptyParagraphCellEnd;
    } else {
      EndsWithConcat(head, content, ParagraphClose, CellClose);
      assert ParagraphClose + CellClose == ClosedParagraphCellEnd;
    }
  }

  /** The emitted cell in row `index`, column `j`: the cell fragment with the column's
      width and paragraph style, its paragraph boundaries merged. */
  function TableCell(columns: seq<Column>, index: nat, j: nat, settings: TableSettings, render: Renderer): (r: Result<string>)
    requires j < |columns|
    decreases ColumnsSize(columns), 2
    ensures r.Ok? <==> CellOk(CellItem(columns[j].value, index))
    ensures r.Ok? ==> StartsWith(r.value, CellOpen) && EndsInParagraph(r.value)
    ensures r.Ok? && StyleTagFree(Nth(settings.widths, j)) ==>
      StartsWith(r.value, CellOpen + CellProperties(Nth(settings.widths, j)))
  {
    var cell :- CellFragment(columns[j].value, index, Nth(settings.widths, j), Nth(settings.styles, j), render);
    MergedCellShape(cell, Nth(settings.widths, j));
    Ok(MergeParagraphs(cell))
  }

  /** The first `j` cells of row `index`, left to right. */
  function RowCells(columns: seq<Column>, j: nat, index: nat, settings: TableSettings, render: Renderer)
    : (r: Result<seq<string>>)
    requires j <= |columns|
    decreases ColumnsSize(columns), 3, j
    ensures r.Ok? <==> forall m :: 0 <= m < j ==> CellOk(CellItem(columns[m].value, index))
    ensures j == |columns| ==> (r.Ok? <==> RowOk(columns, index))
    ensures r.Ok? ==> |r.value| == j
  {
    if j == 0 then Ok([])
    else
      var cells :- RowCells(columns, j - 1, index, settings, render);
      var cell :- TableCell(columns, index, j - 1, settings, render);
      Ok(cells + [cell])
  }

  /** The first `n` data rows of a table, top to bottom. */
  function DataRows(columns: seq<Column>, n: nat, settings: TableSettings, render: Renderer)
    : (r: Result<seq<seq<string>>>)
    decreases ColumnsSize(columns), 4, n
    ensures r.Ok? <==> forall k :: 0 <= k < n ==> RowOk(columns, k)
    ensures r.Ok? ==> |r.value| == n
  {
    if n == 0 then Ok([])
    else
      var rows :- DataRows(columns, n - 1, settings, render);
      var row :- RowCells(columns, |columns|, n - 1, settings, render);
      Ok(rows + [row])
  }

  lemma DataRowsUnfold(columns: seq<Column>, n: nat, settings: TableSettings, render: Renderer)
    requires 0 < n && forall i :: 0 <= i < n ==> RowOk(columns, i)
    decreases ColumnsSize(columns), 4, n + 1
    ensures DataRows(columns, n, settings, render).value
      == DataRows(columns, n - 1, settings, render).value + [RowCells(columns, |columns|, n - 1, settings, render).value]
  {
  }

  /** When the first `n` rows build, so does every shorter prefix, and each prefix is
      the one before it with one more row at the bottom. */
  lemma DataRowsSteps(columns: seq<Column>, n: nat, settings: TableSettings, render: Renderer)
    requires forall i :: 0 <= i < n ==> RowOk(columns, i)
    decreases ColumnsSize(columns), 4, n + 2
    ensures forall i :: 0 <= i <= n ==> DataRows(columns, i, settings, render).Ok?
    ensures forall k :: 0 <= k < n ==> RowCells(columns, |columns|, k, settings, render).Ok?
    ensures forall i :: 0 < i <= n ==>
      DataRows(columns, i, settings, render).value
        == DataRows(columns, i - 1, settings, render).value + [RowCells(columns, |columns|, i - 1, settings, render).value]
  {
    forall i | 0 < i <= n
      ensures DataRows(columns, i, settings, render).value
        == DataRows(columns, i - 1, settings, render).value + [RowCells(columns, |columns|, i - 1, settings, render).value]
    {
      DataRowsUnfold(columns, i, settings, render);
    }
  }

  /** Data row `k` holds the cells of row `k`, left to right. */
  lemma DataRowsContent(columns: seq<Column>, n: nat, settings: TableSettings, render: Renderer)
    requires forall i :: 0 <= i < n ==> RowOk(columns, i)
    decreases ColumnsSize(columns), 4, n + 3
    ensures forall k :: 0 <= k < n ==>
      DataRows(columns, n, settings, render).value[k] == RowCells(columns, |columns|, k, settings, render).value
  {
    DataRowsSteps(columns, n, settings, render);
    var prefixes := seq(n + 1, i requires 0 <= i <= n => DataRows(columns, i, settings, render).value);
    var rows := seq(n, k requires 0 <= k < n => RowCells(columns, |columns|, k, settings, render).value);
    SnocChain(prefixes, rows, n);
  }

  /** A sequence grown one element at a time from empty holds the elements in order:
      `prefixes[i]` is the first `i` of `items`. */
  lemma {:induction false} SnocChain<T>(prefixes: seq<seq<T>>, items: seq<T>, j: nat)
    requires |prefixes| == |items| + 1 && j < |prefixes| && prefixes[0] == []
    requires forall i :: 0 < i < |prefixes| ==> prefixes[i] == prefixes[i - 1] + [items[i - 1]]
    ensures prefixes[j] == items[..j]
  {
    if j > 0 {
      SnocChain(prefixes, items, j - 1);
      assert items[..j] == items[..j - 1] + [items[j - 1]];
    }
  }

  /** The layout of the table for a non-empty column mapping. */
  function TableMarkupOf(columns: seq<Column>, settings: TableSettings, render: Renderer): (r: Result<TableMarkup>)
    decreases ColumnsSize(columns), 5
    ensures r.Ok? <==> ColumnsOk(columns)
    ensures r.Ok? ==>
      && r.value.properties == render(settings.properties)
      && r.value.grid == GridText(settings.widths)
      && r.value.headerRows == (if settings.skipHeader then [] else [Keys(columns)])
      && |r.value.dataRows| == RowCount(columns)
      && forall k :: 0 <= k < RowCount(columns) ==>
           r.value.dataRows[k] == RowCells(columns, |columns|, k, settings, render).value
  {
    ColumnsOkByRows(columns);
    var rows :- DataRows(columns, RowCount(columns), settings, render);
    DataRowsContent(columns, RowCount(columns), settings, render);
    Ok(TableMarkup(render(settings.properties), GridText(settings.widths), if settings.skipHeader then [] else [Keys(columns)], rows))
  }

  /** `create_table_fragment`: the empty string for an empty mapping, a table otherwise. */
  function TableFragment(columns: seq<Column>, opts: TableOptions, render: Renderer): (r: Result<string>)
    decreases ColumnsSize(columns), 6
    ensures r.Ok? <==> ColumnsOk(columns)
    ensures r.Ok? ==> (r.value == "" <==> columns == [])
    ensures r.Ok? && columns != [] ==>
      StartsWith(r.value, TableOpen + render(ResolveSettings(opts).properties)) && EndsWith(r.value, TableClose)
  {
    if columns == [] then Ok("")
    else
      var markup :- TableMarkupOf(columns, ResolveSettings(opts), render);
      Ok(RenderTable(markup))
  }
}

=== FILE: content.dfy ===
/** The polymorphic content value the composer renders, the table options that travel
    with a hash, and the selection rules that decide which value lands in which cell. */
module Content {
  import opened Results

  /** The entries of a `:column_widths` or `:column_styles` list, one per column: an
      entry is held as the text Ruby interpolates into the markup (its `to_s`), or
      `None` for a `nil` entry. */
  type ColumnList = seq<Option<string>>

  /** The fields of a `TableProperties` object as its readers return them. */
  datatype TableProperties = TableProperties(
    tableStyle: Option<string>,
    columnWidths: Option<ColumnList>,
    columnStyles: Option<ColumnList>,
    firstColumn: bool,
    lastColumn: bool)

  /** The table-related entries of an options hash (`:table_style`, `:column_widths`,
      `:column_styles`, `:table_properties`, `:skip_header`); an absent key is `None`. */
  datatype TableOptions = TableOptions(
    tableStyle: Option<string>,
    columnWidths: Option<ColumnList>,
    columnStyles: Option<ColumnList>,
    tableProperties: Option<TableProperties>,
    skipHeader: bool)

  const NoTableOptions: TableOptions := TableOptions(None, None, None, None, false)

  /** A content value, classified the way `create_body_fragments` classifies it. */
  datatype ContentValue =
      /** `nil` */
    | Nil
      /** a Ruby `String` */
    | Text(text: string)
      /** any other scalar (number, symbol, boolean), by its `to_s` */
    | Scalar(repr: string)
      /** a hash holding a `:content` string and possibly a `:style` entry, and no other key */
    | Styled(content: string, style: StyleKey)
      /** an `Array` */
    | Seq(items: seq<ContentValue>)
      /** any other hash: ordered columns (keys rendered by `to_s`), its own
          `:create_table` flag, and its table-option entries */
    | Columns(columns: seq<Column>, createTable: bool, options: TableOptions)
      /** an image, by the run markup the media integrator produced for it */
    | Image(run: string)
      /** a Nokogiri element, by its name test (`w:tbl`) and its serialisation */
    | Raw(isTable: bool, xml: string)

  datatype Column = Column(key: string, value: ContentValue)

  /** The `:style` entry of a styled hash: absent, or present with a style name or
      `nil`, and inserted before or after `:content`. */
  datatype StyleKey = NoStyle | StyleEntry(name: Option<string>, beforeContent: bool)

  /** The character style a styled hash names: `nil` when the entry is absent or `nil`. */
  function StyleName(style: StyleKey): Option<string> {
    if style.StyleEntry? then style.name else None
  }

  /** The options hash `create_body_fragments` receives: `:create_table` from
      `replace_all`, `:style` (a paragraph style) from the cell builder. */
  datatype BodyOptions = BodyOptions(createTable: bool, paragraphStyle: Option<string>)

  const NoBodyOptions: BodyOptions := BodyOptions(false, None)

  /** A size measure for termination: every value is at least 1, and a styled hash
      outweighs the two-column table it can be turned into. */
  function Size(v: ContentValue): (n: nat)
    ensures n >= 1
  {
    match v
    case Styled(_, _) => 3
    case Seq(items) => 1 + ItemsSize(items)
    case Columns(columns, _, _) => 1 + ColumnsSize(columns)
    case _ => 1
  }

  function ItemsSize(items: seq<ContentValue>): (n: nat)
    ensures forall k :: 0 <= k < |items| ==> Size(items[k]) <= n
  {
    if items == [] then 0 else Size(items[0]) + ItemsSize(items[1..])
  }

  function ColumnsSize(columns: seq<Column>): (n: nat)
    ensures forall j :: 0 <= j < |columns| ==> Size(columns[j].value) <= n
  {
    if columns == [] then 0 else Size(columns[0].value) + ColumnsSize(columns[1..])
  }

  /** The keys of a styled hash, in insertion order. */
  function StyledKeys(style: StyleKey): seq<string> {
    match style
    case NoStyle => ["content"]
    case StyleEntry(_, before) => if before then ["style", "content"] else ["content", "style"]
  }

  /** The hash a styled value becomes when it is rendered as a table: its `:content`
      and `:style` entries as columns, in the hash's insertion order; a `nil` style
      is a `nil` column. */
  function StyledColumns(content: string, style: StyleKey): (r: seq<Column>)
    ensures ColumnsSize(r) < Size(Styled(content, style))
    ensures Keys(r) == StyledKeys(style)
    ensures forall j :: 0 <= j < |r| && r[j].key == "content" ==> r[j].value == Text(content)
    ensures forall j :: 0 <= j < |r| && r[j].key == "style" ==>
      style.StyleEntry? && r[j].value == (if style.name.Some? then Text(style.name.value) else Nil)
    ensures ColumnsOk(r)
  {
    var c := Column("content", Text(content));
    var r := match style
      case NoStyle => [c]
      case StyleEntry(name, before) =>
        var s := Column("style", if name.Some? then Text(name.value) else Nil);
        if before then [s, c] else [c, s];
    assert ColumnsSize(r) <= 2 by {
      assert Size(r[0].value) == 1;
      if |r| == 2 {
        assert Size(r[1].value) == 1;
        assert r[1..][1..] == [];
        assert ColumnsSize(r[1..]) == 1 + ColumnsSize(r[1..][1..]);
      } else {
        assert r[1..] == [];
      }
    }
    assert ColumnsOk(r) by {
      forall j, e | 0 <= j < |r| && e in ColumnEntries(r[j].value)
        ensures CellOk(e)
      {
      }
    }
    r
  }

  /** The header texts of a table: the keys, in insertion order. */
  function Keys(columns: seq<Column>): (r: seq<string>)
    ensures |r| == |columns| && forall j :: 0 <= j < |columns| ==> r[j] == columns[j].key
  {
    seq(|columns|, j requires 0 <= j < |columns| => columns[j].key)
  }

  /** A column seen as the list of its entries: an array lists its elements, `nil`
      lists nothing, and any other value is a single entry. */
  function ColumnEntries(value: ContentValue): (r: seq<ContentValue>)
    ensures forall e | e in r :: Size(e) <= Size(value)
  {
    match value
    case Seq(items) => items
    case Nil => []
    case _ => [value]
  }

  /** The running maximum of `inject(0) { |max, value| ... }` over the remaining columns. */
  function RowCountFrom(acc: nat, columns: seq<Column>): (n: nat)
    ensures acc <= n
    ensures forall j :: 0 <= j < |columns| ==> |ColumnEntries(columns[j].value)| <= n
    ensures n == acc || exists j :: 0 <= j < |columns| && |ColumnEntries(columns[j].value)| == n
    decreases |columns|
  {
    if columns == [] then acc
    else
      var value := columns[0].value;
      var length := if value.Seq? then |value.items| else if value.Nil? then 0 else 1;
      var rest := RowCountFrom(if acc < length then length else acc, columns[1..]);
      assert forall j :: 1 <= j < |columns| ==> columns[j] == columns[1..][j - 1];
      rest
  }

  /** The number of data rows of a table built from these columns. */
  function RowCount(columns: seq<Column>): (n: nat)
    ensures forall j :: 0 <= j < |columns| ==> |ColumnEntries(columns[j].value)| <= n
    ensures n == 0 || exists j :: 0 <= j < |columns| && |ColumnEntries(columns[j].value)| == n
  {
    RowCountFrom(0, columns)
  }

  /** The value placed in row `index` of a column (`create_table_cell_fragment`):
      the column's entry at that row, or the empty string past its end. */
  function CellItem(value: ContentValue, index: nat): (r: ContentValue)
    ensures r == if index < |ColumnEntries(value)| then ColumnEntries(value)[index] else Text("")
    ensures Size(r) <= Size(value)
  {
    if !value.Seq? then
      (if index != 0 || value.Nil? then Text("") else value)
    else if index < |value.items| then value.items[index]
    else Text("")
  }

  /** Rendering `v` in body position succeeds: every hash that is not a table has
      been given `:content`, which is what the `Styled` variant stands for. */
  predicate BodyOk(v: ContentValue, createTable: bool)
    decreases Size(v), 0
  {
    match v
    case Columns(columns, ownFlag, _) => (ownFlag || createTable) && ColumnsOk(columns)
    case Seq(items) => forall k :: 0 <= k < |items| ==> BodyOk(items[k], false)
    case _ => true
  }

  /** Rendering `item` as the content of a table cell succeeds. */
  predicate CellOk(item: ContentValue)
    decreases Size(item), 1
  {
    !(item.Raw? && !item.isTable) && BodyOk(item, false)
  }

  /** Every entry of every column can be rendered as a cell. */
  predicate ColumnsOk(columns: seq<Column>)
    decreases ColumnsSize(columns), 2
  {
    forall j, e :: 0 <= j < |columns| && e in ColumnEntries(columns[j].value) ==> CellOk(e)
  }

  /** Every cell of data row `index` can be rendered. */
  predicate RowOk(columns: seq<Column>, index: nat) {
    forall j :: 0 <= j < |columns| ==> CellOk(CellItem(columns[j].value, index))
  }

  /** The cell-by-cell view of `ColumnsOk`: the cells the table builder visits, row by
      row, are all renderable exactly when every column entry is. The padding cells
      past a column's end hold the empty string and always render. */
  lemma ColumnsOkByRows(columns: seq<Column>)
    ensures ColumnsOk(columns) <==> forall k :: 0 <= k < RowCount(columns) ==> RowOk(columns, k)
  {
    var n := RowCount(columns);
    if ColumnsOk(columns) {
      forall k, j | 0 <= k < n && 0 <= j < |columns|
        ensures CellOk(CellItem(columns[j].value, k))
      {
        var entries := ColumnEntries(columns[j].value);
        if k < |entries| {
          assert entries[k] in entries;
        }
      }
    }
    if forall k :: 0 <= k < n ==> RowOk(columns, k) {
      forall j, e | 0 <= j < |columns| && e in ColumnEntries(columns[j].value)
        ensures CellOk(e)
      {
        var entries := ColumnEntries(columns[j].value);
        var k :| 0 <= k < |entries| && entries[k] == e;
        assert RowOk(columns, k);
        assert CellItem(columns[j].value, k) == e;
      }
    }
  }

  /** Columns of plain strings always render. */
  lemma TextColumnsOk(columns: seq<Column>)
    requires forall j :: 0 <= j < |columns| ==> columns[j].value.Text?
    ensures ColumnsOk(columns)
  {
    forall j, e | 0 <= j < |columns| && e in ColumnEntries(columns[j].value)
      ensures CellOk(e)
    {
      assert ColumnEntries(columns[j].value) == [columns[j].value];
    }
  }
}

=== FILE: dispatch.dfy ===
/** What `create_body_fragments` and `create_multiple_fragments` promise for each kind
    of content value, stated through the paragraph decoder and the table builder. */
module Dispatch {
  import opened Results
  import opened Xml
  import opened Content
  import opened Fragments
  import opened Tables
  import opened Composer

  /** The values that become a single run of text: `nil`, strings, other scalars and
      styled hashes. */
  predicate RunLike(v: ContentValue) {
    v.Nil? || v.Text? || v.Scalar? || v.Styled?
  }

  /** The run such a value shows: its `to_s` (`nil` shows the empty string), or the
      styled content with its character style (a missing style shows as empty). */
  function RunOf(v: ContentValue): Run
    requires RunLike(v)
  {
    match v
    case Nil => PlainRun("")
    case Text(text) => PlainRun(text)
    case Scalar(repr) => PlainRun(repr)
    case Styled(content, style) => StyledRun(content, StyleName(style).GetOr(""))
  }

  predicate OptionStyleSafe(style: Option<string>) {
    style.Some? ==> StyleSafe(style.value)
  }

  /** Run-like values in paragraph position always give exactly one fragment; `nil` is
      never dropped. */
  lemma RunLikeFragment(v: ContentValue, o: BodyOptions, render: Renderer)
    requires RunLike(v) && !(v.Styled? && o.createTable)
    ensures BodyFragments(v, o, render) == Ok([ParagraphFragment(RunOf(v), o.paragraphStyle)])
  {
  }

  /** ... and that fragment reads back as one paragraph holding exactly the value's text,
      styled only for a styled hash, and carrying the paragraph style exactly when one
      was given. */
  lemma RunLikeParagraph(v: ContentValue, o: BodyOptions, render: Renderer)
    requires RunLike(v) && !(v.Styled? && o.createTable)
    requires v.Styled? ==> OptionStyleSafe(StyleName(v.style))
    requires OptionStyleSafe(o.paragraphStyle)
    ensures BodyFragments(v, o, render).Ok? && |BodyFragments(v, o, render).value| == 1
    ensures ParseParagraph(BodyFragments(v, o, render).value[0]) == Some((RunOf(v), o.paragraphStyle))
  {
    RunLikeFragment(v, o, render);
    ParagraphRoundTrip(RunOf(v), o.paragraphStyle);
  }

  /** An image gives exactly one paragraph, wrapping the image run. */
  lemma ImageFragment(run: string, o: BodyOptions, render: Renderer)
    ensures BodyFragments(Image(run), o, render).Ok?
    ensures var r := BodyFragments(Image(run), o, render).value;
      |r| == 1 && StartsWith(r[0], ParagraphOpen) && EndsWith(r[0], ParagraphClose)
      && r[0][|ParagraphOpen|..|r[0]| - |ParagraphClose|] == run
  {
    var f := ParagraphOpen + run + ParagraphClose;
    assert f[..|ParagraphOpen|] == ParagraphOpen;
    assert f[|f| - |ParagraphClose|..] == ParagraphClose;
    assert f[|ParagraphOpen|..|f| - |ParagraphClose|] == run;
  }

  /** An XML element is emitted verbatim, whatever its name. */
  lemma RawFragment(isTable: bool, xml: string, o: BodyOptions, render: Renderer)
    ensures BodyFragments(Raw(isTable, xml), o, render) == Ok([xml])
  {
  }

  /** A column hash renders as exactly one table when `:create_table` is set on it or
      in the options, and raises otherwise. */
  lemma ColumnsFragment(columns: seq<Column>, ownFlag: bool, options: TableOptions, o: BodyOptions, render: Renderer)
    requires ColumnsOk(columns)
    ensures var r := BodyFragments(Columns(columns, ownFlag, options), o, render);
      if ownFlag || o.createTable then r == Ok([TableFragment(columns, options, render).value])
      else r == Err(MissingContent)
  {
    if ownFlag || o.createTable {
      assert TableFragment(columns, options, render).Ok?;
    }
  }

  lemma TableIsNotParagraph(f: string)
    ensures StartsWith(f, TableOpen) ==> !StartsWith(f, ParagraphOpen)
  {
    if StartsWith(f, TableOpen) {
      assert f[3] == 't';
      assert |f| < |ParagraphOpen| || f[..|ParagraphOpen|][3] != ParagraphOpen[3];
    }
  }

  /** A styled hash under `:create_table` becomes a table of its `content` and `style`
      entries ... */
  lemma StyledTable(content: string, style: StyleKey, o: BodyOptions, render: Renderer)
    requires o.createTable
    ensures var r := BodyFragments(Styled(content, style), o, render);
      r.Ok? && |r.value| == 1 && StartsWith(r.value[0], TableOpen) && !StartsWith(r.value[0], ParagraphOpen)
  {
    var table := TableFragment(StyledColumns(content, style), NoTableOptions, render);
    assert BodyFragments(Styled(content, style), o, render) == Ok([table.value]);
    StartsWithShorter(table.value, TableOpen, render(ResolveSettings(NoTableOptions).properties));
    TableIsNotParagraph(table.value);
  }

  /** ... and a paragraph otherwise. */
  lemma StyledParagraph(content: string, style: StyleKey, o: BodyOptions, render: Renderer)
    requires !o.createTable
    ensures var r := BodyFragments(Styled(content, style), o, render);
      r.Ok? && |r.value| == 1 && StartsWith(r.value[0], ParagraphOpen) && !StartsWith(r.value[0], TableOpen)
  {
    RunLikeFragment(Styled(content, style), o, render);
    var f := ParagraphFragment(StyledRun(content, StyleName(style).GetOr("")), o.paragraphStyle);
    TableIsNotParagraph(f);
  }

  /** The options given with a list do not reach its elements. */
  lemma SeqIgnoresOptions(items: seq<ContentValue>, o1: BodyOptions, o2: BodyOptions, render: Renderer)
    ensures BodyFragments(Seq(items), o1, render) == BodyFragments(Seq(items), o2, render) == MultipleFragments(items, render)
  {
  }

  /** A one-element list gives that element's fragments, rendered without options. */
  lemma MultipleSingle(v: ContentValue, render: Renderer)
    ensures MultipleFragments([v], render) == BodyFragments(v, NoBodyOptions, render)
  {
    assert [v][1..] == [];
    var head := BodyFragments(v, NoBodyOptions, render);
    if head.Ok? {
      assert head.value + [] == head.value;
    }
  }

  /** The fragments of a list are those of its two parts, in order: the list renders
      as the in-order concatenation of its elements' fragments. */
  lemma {:induction false} MultipleAppend(a: seq<ContentValue>, b: seq<ContentValue>, render: Renderer)
    ensures MultipleFragments(a + b, render).Ok? <==> MultipleFragments(a, render).Ok? && MultipleFragments(b, render).Ok?
    ensures MultipleFragments(a + b, render).Ok? ==>
      MultipleFragments(a + b, render).value == MultipleFragments(a, render).value + MultipleFragments(b, render).value
  {
    if a == [] {
      assert a + b == b;
    } else {
      assert (a + b)[0] == a[0];
      assert (a + b)[1..] == a[1..] + b;
      MultipleAppend(a[1..], b, render);
      var head := BodyFragments(a[0], NoBodyOptions, render);
      if head.Ok? && MultipleFragments(a + b, render).Ok? {
        var ra := MultipleFragments(a[1..], render).value;
        var rb := MultipleFragments(b, render).value;
        assert head.value + (ra + rb) == (head.value + ra) + rb;
      }
    }
  }
}

=== FILE: fragments.dfy ===
/** The paragraph-level fragments: `create_paragraph_fragment` for a string or a styled
    hash, the page-break and word-break constants, and a decoder for paragraph
    fragments that shows what a fragment carries. */
module Fragments {
  import opened Results
  import opened Xml

  /** The single run of a paragraph fragment: plain text, or text with a character
      style (a styled hash; a missing `:style` interpolates as the empty string). */
  datatype Run = PlainRun(text: string) | StyledRun(text: string, style: string)

  const RunOpen: string := "<w:r>"
  const RunStyleOpen: string := "<w:rPr><w:rStyle w:val=\""
  const RunStyleClose: string := "\"/></w:rPr>"
  const TextOpen: string := "<w:t xml:space=\"preserve\">"
  const RunClose: string := "</w:t></w:r>"
  const ParagraphOpen: string := "<w:p>"
  const ParagraphStyleOpen: string := "<w:pPr><w:pStyle w:val=\""
  const ParagraphStyleClose: string := "\"/></w:pPr>"
  const ParagraphClose: string := "</w:p>"

  function RunProperties(run: Run): string {
    if run.StyledRun? then RunStyleOpen + run.style + RunStyleClose else ""
  }

  function RunFragment(run: Run): string {
    RunOpen + RunProperties(run) + TextOpen + Escape(run.text) + RunClose
  }

  function ParagraphProperties(style: Option<string>): string {
    if style.Some? then ParagraphStyleOpen + style.value + ParagraphStyleClose else ""
  }

  /** `create_paragraph_fragment` for a string or a hash. */
  function ParagraphFragment(run: Run, style: Option<string>): (r: string)
    ensures StartsWith(r, ParagraphOpen) && EndsWith(r, ParagraphClose)
  {
    var r := ParagraphOpen + ParagraphProperties(style) + RunFragment(run) + ParagraphClose;
    assert r[..|ParagraphOpen|] == ParagraphOpen;
    assert r[|r| - |ParagraphClose|..] == ParagraphClose;
    r
  }

  /** `create_page_break_fragment`: a paragraph holding one run with a page break. */
  function PageBreakFragment(): (r: string)
    ensures StartsWith(r, ParagraphOpen + RunOpen) && EndsWith(r, "</w:r>" + ParagraphClose)
  {
    var r := ParagraphOpen + RunOpen + PageBreak + "</w:r>" + ParagraphClose;
    assert r[..|ParagraphOpen + RunOpen|] == ParagraphOpen + RunOpen;
    assert r[|r| - |"</w:r>" + ParagraphClose|..] == "</w:r>" + ParagraphClose;
    r
  }

  const PageBreak: string := "<w:br w:type=\"page\" />"

  /** The page break is a paragraph, but not one of text: its run holds a break, not a
      `<w:t>`, so it does not read back as a text paragraph. */
  lemma PageBreakHasNoText()
    ensures ParseParagraph(PageBreakFragment()) == None
  {
    var rest := "</w:r>" + ParagraphClose;
    var afterRun := PageBreak + rest;
    var afterParagraph := RunOpen + afterRun;
    assert PageBreakFragment() == ParagraphOpen + afterParagraph by {
      assert ParagraphOpen + RunOpen + PageBreak + rest == ParagraphOpen + (RunOpen + (PageBreak + rest));
    }
    ExpectLiteral(ParagraphOpen, afterParagraph);
    assert !StartsWith(afterParagraph, ParagraphStyleOpen) by {
      assert afterParagraph[3] == 'r' && ParagraphStyleOpen[3] == 'p';
      assert afterParagraph[..|ParagraphStyleOpen|][3] != ParagraphStyleOpen[3];
    }
    ExpectLiteral(RunOpen, afterRun);
    assert !StartsWith(afterRun, RunStyleOpen) by {
      assert afterRun[3] == 'b' && RunStyleOpen[3] == 'r';
      assert afterRun[..|RunStyleOpen|][3] != RunStyleOpen[3];
    }
    assert !StartsWith(afterRun, TextOpen) by {
      assert afterRun[3] == 'b' && TextOpen[3] == 't';
      assert afterRun[..|TextOpen|][3] != TextOpen[3];
    }
  }

  /** `create_word_break_fragment`: a bare run holding a line break, no paragraph. */
  function WordBreakFragment(): (r: string)
    ensures StartsWith(r, RunOpen) && EndsWith(r, "</w:r>")
    ensures !StartsWith(r, ParagraphOpen)
  {
    var r := "<w:r><w:br/></w:r>";
    assert r[..|RunOpen|] == RunOpen;
    assert r[|r| - 6..] == "</w:r>";
    assert r[3] != ParagraphOpen[3];
    r
  }

  // Decoding

  /** Reads the escaped text of a run up to the next tag, then the run's closing tags. */
  function ParseRunText(s: string): Option<(string, string)> {
    var (escaped, s1) := SplitAt(s, '<');
    var s2 :- Expect(s1, RunClose);
    Some((Unescape(escaped), s2))
  }

  /** Reads a run after its `<w:r>`, when it has no character style. */
  function ParsePlainRun(s: string): Option<(Run, string)> {
    var s1 :- Expect(s, TextOpen);
    var (text, s2) :- ParseRunText(s1);
    Some((PlainRun(text), s2))
  }

  /** Reads a run after its `<w:r><w:rPr><w:rStyle w:val="`. */
  function ParseStyledRun(s: string): Option<(Run, string)> {
    var (style, s1) := SplitAt(s, '"');
    var s2 :- Expect(s1, RunStyleClose + TextOpen);
    var (text, s3) :- ParseRunText(s2);
    Some((StyledRun(text, style), s3))
  }

  function ParseRun(s: string): Option<(Run, string)> {
    var s1 :- Expect(s, RunOpen);
    if StartsWith(s1, RunStyleOpen) then ParseStyledRun(s1[|RunStyleOpen|..]) else ParsePlainRun(s1)
  }

  function ParseParagraphBody(s: string, style: Option<string>): Option<(Run, Option<string>)> {
    var (run, rest) :- ParseRun(s);
    if rest == ParagraphClose then Some((run, style)) else None
  }

  /** Reads a paragraph after its `<w:p><w:pPr><w:pStyle w:val="`. */
  function ParseStyledParagraph(s: string): Option<(Run, Option<string>)> {
    var (style, s1) := SplitAt(s, '"');
    var s2 :- Expect(s1, ParagraphStyleClose);
    ParseParagraphBody(s2, Some(style))
  }

  /** Reads a paragraph fragment back into its run and its paragraph style. */
  function ParseParagraph(s: string): Option<(Run, Option<string>)> {
    var s1 :- Expect(s, ParagraphOpen);
    if StartsWith(s1, ParagraphStyleOpen) then ParseStyledParagraph(s1[|ParagraphStyleOpen|..])
    else ParseParagraphBody(s1, None)
  }

  /** A style may not contain `"`: styles are interpolated into an attribute unescaped. */
  predicate StyleSafe(style: string) {
    '"' !in style
  }

  predicate RunSafe(run: Run) {
    run.StyledRun? ==> StyleSafe(run.style)
  }

  lemma SplitEscapedText(text: string, rest: string)
    ensures SplitAt(Escape(text) + RunClose + rest, '<') == (Escape(text), RunClose + rest)
  {
    assert Escape(text) + RunClose + rest == Escape(text) + (RunClose + rest);
    SplitAtFirst(Escape(text), '<', RunClose + rest);
  }

  /** The text of a run is read back as the original, unescaped text. */
  lemma RunTextRoundTrip(text: string, rest: string)
    ensures ParseRunText(Escape(text) + RunClose + rest) == Some((text, rest))
  {
    SplitEscapedText(text, rest);
    ExpectLiteral(RunClose, rest);
    EscapeRoundTrip(text);
  }

  lemma NotRunStyled(tail: string)
    ensures !StartsWith(TextOpen + tail, RunStyleOpen)
  {
    var body := TextOpen + tail;
    assert body[3] != RunStyleOpen[3];
    assert |body| < |RunStyleOpen| || body[..|RunStyleOpen|][3] != RunStyleOpen[3];
  }

  lemma PlainRunRoundTrip(text: string, rest: string)
    ensures ParseRun(RunFragment(PlainRun(text)) + rest) == Some((PlainRun(text), rest))
  {
    var tail := Escape(text) + RunClose + rest;
    var body := TextOpen + tail;
    var s := RunOpen + body;
    assert RunFragment(PlainRun(text)) + rest == s by {
      assert RunProperties(PlainRun(text)) == "";
      RegroupPlainRun(RunOpen, TextOpen, Escape(text), RunClose, rest);
    }
    assert Expect(s, RunOpen) == Some(body) by { ExpectLiteral(RunOpen, body); }
    NotRunStyled(tail);
    assert Expect(body, TextOpen) == Some(tail) by { ExpectLiteral(TextOpen, tail); }
    RunTextRoundTrip(text, rest);
  }

  lemma RegroupPlainRun(a: string, c: string, d: string, e: string, rest: string)
    ensures a + "" + c + d + e + rest == a + (c + (d + e + rest))
  {
  }

  lemma RegroupStyledTail(a: string, b: string, c: string, d: string, e: string, rest: string)
    ensures a + b + c + d + e + rest == a + (b + c + (d + e + rest))
  {
  }

  lemma StyledRunSteps(text: string, style: string, s1: string, tail: string, rest: string)
    requires SplitAt(style + s1, '"') == (style, s1)
    requires Expect(s1, RunStyleClose + TextOpen) == Some(tail)
    requires ParseRunText(tail) == Some((text, rest))
    ensures ParseStyledRun(style + s1) == Some((StyledRun(text, style), rest))
  {
  }

  lemma StyledRunTail(text: string, style: string, rest: string)
    requires StyleSafe(style)
    ensures
      ParseStyledRun(style + RunStyleClose + TextOpen + Escape(text) + RunClose + rest)
        == Some((StyledRun(text, style), rest))
  {
    var tail := Escape(text) + RunClose + rest;
    var s1 := RunStyleClose + TextOpen + tail;
    assert style + RunStyleClose + TextOpen + Escape(text) + RunClose + rest == style + s1 by {
      RegroupStyledTail(style, RunStyleClose, TextOpen, Escape(text), RunClose, rest);
    }
    assert SplitAt(style + s1, '"') == (style, s1) by { SplitAtFirst(style, '"', s1); }
    assert Expect(s1, RunStyleClose + TextOpen) == Some(tail) by {
      assert s1 == (RunStyleClose + TextOpen) + tail;
      ExpectLiteral(RunStyleClose + TextOpen, tail);
    }
    assert ParseRunText(tail) == Some((text, rest)) by { RunTextRoundTrip(text, rest); }
    StyledRunSteps(text, style, s1, tail, rest);
  }

  lemma RegroupStyledRun(a: string, b: string, c: string, d: string, e: string, f: string, g: string, rest: string)
    ensures a + (b + c + d) + e + f + g + rest == a + (b + (c + d + e + f + g + rest))
  {
  }

  lemma StyledRunGlue(s: string, s1: string, after: string, result: Option<(Run, string)>)
    requires Expect(s, RunOpen) == Some(s1)
    requires StartsWith(s1, RunStyleOpen) && s1[|RunStyleOpen|..] == after
    requires ParseStyledRun(after) == result
    ensures ParseRun(s) == result
  {
  }

  lemma StyledRunRoundTrip(text: string, style: string, rest: string)
    requires StyleSafe(style)
    ensures ParseRun(RunFragment(StyledRun(text, style)) + rest) == Some((StyledRun(text, style), rest))
  {
    var after := style + RunStyleClose + TextOpen + Escape(text) + RunClose + rest;
    var s1 := RunStyleOpen + after;
    var s := RunOpen + s1;
    assert RunFragment(StyledRun(text, style)) + rest == s by {
      assert RunFragment(StyledRun(text, style))
        == RunOpen + (RunStyleOpen + style + RunStyleClose) + TextOpen + Escape(text) + RunClose;
      RegroupStyledRun(RunOpen, RunStyleOpen, style, RunStyleClose, TextOpen, Escape(text), RunClose, rest);
    }
    assert Expect(s, RunOpen) == Some(s1) by { ExpectLiteral(RunOpen, s1); }
    assert StartsWith(s1, RunStyleOpen) && s1[|RunStyleOpen|..] == after by { ExpectLiteral(RunStyleOpen, after); }
    assert ParseStyledRun(after) == Some((StyledRun(text, style), rest)) by { StyledRunTail(text, style, rest); }
    StyledRunGlue(s, s1, after, Some((StyledRun(text, style), rest)));
  }

  /** A run fragment is read back as the run it was made from. */
  lemma RunRoundTrip(run: Run, rest: string)
    requires RunSafe(run)
    ensures ParseRun(RunFragment(run) + rest) == Some((run, rest))
  {
    match run
    case PlainRun(text) => PlainRunRoundTrip(text, rest);
    case StyledRun(text, style) => StyledRunRoundTrip(text, style, rest);
  }

  lemma NotParagraphStyled(run: Run)
    ensures !StartsWith(RunFragment(run) + ParagraphClose, ParagraphStyleOpen)
  {
    var tail := RunFragment(run) + ParagraphClose;
    assert tail[3] == RunOpen[3];
    assert tail[3] != ParagraphStyleOpen[3];
    assert |tail| < |ParagraphStyleOpen| || tail[..|ParagraphStyleOpen|][3] != ParagraphStyleOpen[3];
  }

  lemma StyledParagraphTail(run: Run, style: string)
    requires RunSafe(run) && StyleSafe(style)
    ensures ParseStyledParagraph(style + ParagraphStyleClose + RunFragment(run) + ParagraphClose) == Some((run, Some(style)))
  {
    var tail := RunFragment(run) + ParagraphClose;
    var s1 := ParagraphStyleClose + tail;
    assert style + ParagraphStyleClose + RunFragment(run) + ParagraphClose == style + s1 by {
      RegroupStyledParagraph(style, ParagraphStyleClose, RunFragment(run), ParagraphClose);
    }
    assert SplitAt(style + s1, '"') == (style, s1) by { SplitAtFirst(style, '"', s1); }
    assert Expect(s1, ParagraphStyleClose) == Some(tail) by { ExpectLiteral(ParagraphStyleClose, tail); }
    assert ParseParagraphBody(tail, Some(style)) == Some((run, Some(style))) by { RunRoundTrip(run, ParagraphClose); }
    StyledParagraphSteps(style, s1, tail, Some((run, Some(style))));
  }

  lemma RegroupStyledParagraph(a: string, b: string, c: string, d: string)
    ensures a + b + c + d == a + (b + (c + d))
  {
  }

  lemma StyledParagraphSteps(style: string, s1: string, tail: string, result: Option<(Run, Option<string>)>)
    requires SplitAt(style + s1, '"') == (style, s1)
    requires Expect(s1, ParagraphStyleClose) == Some(tail)
    requires ParseParagraphBody(tail, Some(style)) == result
    ensures ParseStyledParagraph(style + s1) == result
  {
  }

  lemma StyledParagraphGlue(s: string, s1: string, after: string, result: Option<(Run, Option<string>)>)
    requires Expect(s, ParagraphOpen) == Some(s1)
    requires StartsWith(s1, ParagraphStyleOpen) && s1[|ParagraphStyleOpen|..] == after
    requires ParseStyledParagraph(after) == result
    ensures ParseParagraph(s) == result
  {
  }

  lemma StyledParagraphRoundTrip(run: Run, style: string)
    requires RunSafe(run) && StyleSafe(style)
    ensures ParseParagraph(ParagraphFragment(run, Some(style))) == Some((run, Some(style)))
  {
    var after := style + ParagraphStyleClose + RunFragment(run) + ParagraphClose;
    var s1 := ParagraphStyleOpen + after;
    var s := ParagraphOpen + s1;
    assert ParagraphFragment(run, Some(style)) == s by {
      RegroupParagraph(ParagraphOpen, ParagraphStyleOpen, style, ParagraphStyleClose, RunFragment(run), ParagraphClose);
    }
    assert Expect(s, ParagraphOpen) == Some(s1) by { ExpectLiteral(ParagraphOpen, s1); }
    assert StartsWith(s1, ParagraphStyleOpen) && s1[|ParagraphStyleOpen|..] == after by {
      ExpectLiteral(ParagraphStyleOpen, after);
    }
    assert ParseStyledParagraph(after) == Some((run, Some(style))) by { StyledParagraphTail(run, style); }
    StyledParagraphGlue(s, s1, after, Some((run, Some(style))));
  }

  lemma RegroupParagraph(a: string, b: string, c: string, d: string, e: string, f: string)
    ensures a + (b + c + d) + e + f == a + (b + (c + d + e + f))
  {
  }

  /** An unstyled paragraph is its run between the paragraph tags. */
  lemma PlainParagraphShape(run: Run)
    ensures ParagraphFragment(run, None) == ParagraphOpen + RunFragment(run) + ParagraphClose
  {
    assert ParagraphProperties(None) == "";
    assert ParagraphOpen + "" == ParagraphOpen;
  }

  lemma Regroup3(a: string, b: string, c: string)
    ensures a + b + c == a + (b + c)
  {
  }

  lemma PlainParagraphRoundTrip(run: Run)
    requires RunSafe(run)
    ensures ParseParagraph(ParagraphFragment(run, None)) == Some((run, None))
  {
    var tail := RunFragment(run) + ParagraphClose;
    var s := ParagraphOpen + tail;
    assert ParagraphFragment(run, None) == s by {
      PlainParagraphShape(run);
      Regroup3(ParagraphOpen, RunFragment(run), ParagraphClose);
    }
    assert Expect(s, ParagraphOpen) == Some(tail) by { ExpectLiteral(ParagraphOpen, tail); }
    assert !StartsWith(tail, ParagraphStyleOpen) by { NotParagraphStyled(run); }
    assert ParseParagraphBody(tail, None) == Some((run, None)) by { RunRoundTrip(run, ParagraphClose); }
  }

  /** A paragraph fragment made from a string or a styled hash is read back as exactly
      one run (styled only for the hash form) holding the original text, and carries a
      paragraph style exactly when one was given. */
  lemma ParagraphRoundTrip(run: Run, style: Option<string>)
    requires RunSafe(run) && (style.Some? ==> StyleSafe(style.value))
    ensures ParseParagraph(ParagraphFragment(run, style)) == Some((run, style))
  {
    if style.Some? {
      StyledParagraphRoundTrip(run, style.value);
    } else {
      PlainParagraphRoundTrip(run);
    }
  }
}

=== FILE: html.dfy ===
/** `create_table_fragment_from_html`, from the point where the header and body rows
    have been pulled out of the HTML: option resolution, the grid, the header rows
    and one cell per body entry. Two resolutions are modelled: the one the code
    performs and the one it evidently intends. */
module HtmlTables {
  import opened Results
  import opened Xml
  import opened Content
  import opened Fragments
  import opened Tables
  import opened ParagraphMerge
  import opened MarkupMerge
  import opened Composer
  import opened CellLayout

  /** What the HTML argument yields: `nil` or the empty string, a fragment without a
      `table` element, or a table's header rows (`thead` `th` texts) and body rows
      (`tbody` `td` texts), in document order. */
  datatype HtmlInput =
    | Blank
    | NoTableElement
    | Extracted(headRows: seq<seq<string>>, bodyRows: seq<seq<string>>)

  /** The cell for text `text` in column `j`: a cell built from the string with the
      column's width and paragraph style, its paragraph boundaries merged. */
  function HtmlCell(text: string, j: nat, settings: TableSettings, render: Renderer): (r: string)
    ensures StartsWith(r, CellOpen) && EndsInParagraph(r)
    ensures StyleTagFree(Nth(settings.widths, j)) ==> StartsWith(r, CellOpen + CellProperties(Nth(settings.widths, j)))
  {
    var cell := CellFragment(Text(text), 0, Nth(settings.widths, j), Nth(settings.styles, j), render);
    assert cell.Ok? by { assert CellOk(CellItem(Text(text), 0)); }
    MergedCellShape(cell.value, Nth(settings.widths, j));
    MergeParagraphs(cell.value)
  }

  function HtmlRow(row: seq<string>, settings: TableSettings, render: Renderer): (r: seq<string>)
    ensures |r| == |row|
  {
    seq(|row|, j requires 0 <= j < |row| => HtmlCell(row[j], j, settings, render))
  }

  /** The table layout the HTML builder produces: every header row unless the header
      is skipped, then one data row per body row, with one cell per entry. */
  function HtmlMarkup(headRows: seq<seq<string>>, bodyRows: seq<seq<string>>, settings: TableSettings, render: Renderer)
    : (r: TableMarkup)
    ensures r.grid == GridText(settings.widths) && r.properties == render(settings.properties)
    ensures r.headerRows == (if settings.skipHeader then [] else headRows)
    ensures |r.dataRows| == |bodyRows| && forall k :: 0 <= k < |bodyRows| ==> |r.dataRows[k]| == |bodyRows[k]|
  {
    TableMarkup(render(settings.properties), GridText(settings.widths), if settings.skipHeader then [] else headRows,
      seq(|bodyRows|, k requires 0 <= k < |bodyRows| => HtmlRow(bodyRows[k], settings, render)))
  }

  /** The HTML table for already resolved settings: the empty string when there is no
      table, a `<w:tbl>` element otherwise, even when the table has no rows. */
  function HtmlTableWith(input: HtmlInput, settings: TableSettings, render: Renderer): (r: string)
    ensures r == "" <==> !input.Extracted?
    ensures input.Extracted? ==> StartsWith(r, TableOpen + render(settings.properties)) && EndsWith(r, TableClose)
  {
    match input
    case Extracted(headRows, bodyRows) => RenderTable(HtmlMarkup(headRows, bodyRows, settings, render))
    case _ => ""
  }

  /** `create_table_fragment_from_html` as written, resolving its options with the
      `widths || styles = ...` assignment. */
  function HtmlTableAsWritten(input: HtmlInput, opts: TableOptions, render: Renderer): (r: string)
    ensures r == "" <==> !input.Extracted?
    ensures input.Extracted? ==> StartsWith(r, TableOpen + render(HtmlSettings(opts).properties)) && EndsWith(r, TableClose)
  {
    HtmlTableWith(input, HtmlSettings(opts), render)
  }

  /** `create_table_fragment_from_html` with the options resolved as in
      `create_table_fragment`: widths and styles read independently. */
  function HtmlTable(input: HtmlInput, opts: TableOptions, render: Renderer): (r: string)
    ensures r == "" <==> !input.Extracted?
    ensures input.Extracted? ==> StartsWith(r, TableOpen + render(ResolveSettings(opts).properties)) && EndsWith(r, TableClose)
  {
    HtmlTableWith(input, ResolveSettings(opts), render)
  }

  lemma Middle(head: string, mid: string, close: string)
    ensures var s := head + mid + close;
      StartsWith(s, head) && EndsWith(s, close) && s[|head|..|s| - |close|] == mid
  {
    var s := head + mid + close;
    assert s[..|head|] == head;
    assert s[|s| - |close|..] == close;
    assert s[|head|..|s| - |close|] == mid;
  }

  /** A body cell holds exactly one paragraph, with the column's style, of exactly the
      cell's text, between the cell tags and the column's `tcPr`. */
  lemma HtmlCellShape(text: string, j: nat, settings: TableSettings, render: Renderer)
    requires StyleTagFree(Nth(settings.widths, j)) && StyleTagFree(Nth(settings.styles, j))
    ensures HtmlCell(text, j, settings, render)
      == CellOpen + CellProperties(Nth(settings.widths, j))
         + ParagraphFragment(PlainRun(text), Nth(settings.styles, j)) + CellClose
  {
    RunLikeCell(Text(text), 0, Nth(settings.widths, j), Nth(settings.styles, j), render);
    RunLikeCellMerged(Text(text), 0, Nth(settings.widths, j), Nth(settings.styles, j), render);
  }

  /** ... so the paragraph between the cell head and `</w:tc>` reads back as the text
      and the column's paragraph style. */
  lemma HtmlCellReadsBack(text: string, j: nat, settings: TableSettings, render: Renderer)
    requires StyleTagFree(Nth(settings.widths, j)) && StyleTagFree(Nth(settings.styles, j))
    requires Nth(settings.styles, j).Some? ==> StyleSafe(Nth(settings.styles, j).value)
    ensures var cell := HtmlCell(text, j, settings, render);
      var head := CellOpen + CellProperties(Nth(settings.widths, j));
      && |head| + |CellClose| <= |cell| && StartsWith(cell, head) && EndsWith(cell, CellClose)
      && ParseParagraph(cell[|head|..|cell| - |CellClose|]) == Some((PlainRun(text), Nth(settings.styles, j)))
  {
    HtmlCellShape(text, j, settings, render);
    var paragraph := ParagraphFragment(PlainRun(text), Nth(settings.styles, j));
    Middle(CellOpen + CellProperties(Nth(settings.widths, j)), paragraph, CellClose);
    ParagraphRoundTrip(PlainRun(text), Nth(settings.styles, j));
  }

  /** Data row `k`, cell `j` is the cell for body entry `k`, `j`. */
  lemma HtmlDataCell(headRows: seq<seq<string>>, bodyRows: seq<seq<string>>, settings: TableSettings, render: Renderer, k: nat, j: nat)
    requires k < |bodyRows| && j < |bodyRows[k]|
    ensures |HtmlMarkup(headRows, bodyRows, settings, render).dataRows[k]| == |bodyRows[k]|
    ensures HtmlMarkup(headRows, bodyRows, settings, render).dataRows[k][j] == HtmlCell(bodyRows[k][j], j, settings, render)
  {
  }

  /** A rendered HTML table reads back as its grid (exactly the resolved widths, or none),
      then its header texts when there is one header row that is not skipped, then
      the data rows. */
  lemma HtmlReadsBack(headRows: seq<seq<string>>, bodyRows: seq<seq<string>>, settings: TableSettings, render: Renderer)
    requires QuoteFree(GridText(settings.widths)) && |headRows| <= 1
    ensures var t := HtmlMarkup(headRows, bodyRows, settings, render);
      var f := HtmlTableWith(Extracted(headRows, bodyRows), settings, render);
      var head := TableOpen + render(settings.properties);
      && ParseGrid(f[|head|..]) == Some((GridText(settings.widths), AfterGrid(t)))
      && (!settings.skipHeader && |headRows| == 1 ==>
            ParseHeaderRow(AfterGrid(t)) == Some((headRows[0], DataRowsXml(t.dataRows) + TableClose)))
      && (settings.skipHeader || headRows == [] ==> AfterGrid(t) == DataRowsXml(t.dataRows) + TableClose)
  {
    var t := HtmlMarkup(headRows, bodyRows, settings, render);
    MarkupReadsBack(t);
  }

  // The option resolution, as written and as intended

  /** As written: with column styles and no widths, the grid of the HTML table carries
      the style names, and every cell carries its column's style name as its width as
      well as its paragraph style. */
  lemma HtmlStylesInGrid(headRows: seq<seq<string>>, bodyRows: seq<seq<string>>, opts: TableOptions, render: Renderer)
    requires opts.tableProperties.None? && opts.columnWidths.None? && opts.columnStyles.Some?
    requires QuoteFree(GridText(opts.columnStyles))
    ensures ResolveSettings(opts).widths.None?
    ensures var f := HtmlTableAsWritten(Extracted(headRows, bodyRows), opts, render);
      var head := TableOpen + render(HtmlSettings(opts).properties);
      ParseGrid(f[|head|..]).Some? && ParseGrid(f[|head|..]).value.0 == GridText(opts.columnStyles)
    ensures forall k, j ::
      (0 <= k < |bodyRows| && 0 <= j < |bodyRows[k]| && StyleTagFree(Nth(opts.columnStyles, j)))
      ==>
        HtmlMarkup(headRows, bodyRows, HtmlSettings(opts), render).dataRows[k][j]
          == CellOpen + CellProperties(Nth(opts.columnStyles, j))
             + ParagraphFragment(PlainRun(bodyRows[k][j]), Nth(opts.columnStyles, j)) + CellClose
  {
    var settings := HtmlSettings(opts);
    var t := HtmlMarkup(headRows, bodyRows, settings, render);
    RenderedGrid(t);
    forall k, j | 0 <= k < |bodyRows| && 0 <= j < |bodyRows[k]| && StyleTagFree(Nth(opts.columnStyles, j))
      ensures t.dataRows[k][j]
        == CellOpen + CellProperties(Nth(opts.columnStyles, j))
           + ParagraphFragment(PlainRun(bodyRows[k][j]), Nth(opts.columnStyles, j)) + CellClose
    {
      HtmlDataCell(headRows, bodyRows, settings, render, k, j);
      HtmlCellShape(bodyRows[k][j], j, settings, render);
    }
  }

  /** As written: with both widths and styles, the cells keep the widths and lose the
      styles, although the options resolve to both. */
  lemma HtmlStylesDropped(headRows: seq<seq<string>>, bodyRows: seq<seq<string>>, opts: TableOptions, render: Renderer)
    requires opts.tableProperties.None? && opts.columnWidths.Some? && opts.columnStyles.Some?
    ensures ResolveSettings(opts).styles == opts.columnStyles
    ensures forall k, j ::
      (0 <= k < |bodyRows| && 0 <= j < |bodyRows[k]| && StyleTagFree(Nth(opts.columnWidths, j)))
      ==>
        HtmlMarkup(headRows, bodyRows, HtmlSettings(opts), render).dataRows[k][j]
          == CellOpen + CellProperties(Nth(opts.columnWidths, j))
             + ParagraphFragment(PlainRun(bodyRows[k][j]), None) + CellClose
  {
    var settings := HtmlSettings(opts);
    var t := HtmlMarkup(headRows, bodyRows, settings, render);
    forall k, j | 0 <= k < |bodyRows| && 0 <= j < |bodyRows[k]| && StyleTagFree(Nth(opts.columnWidths, j))
      ensures t.dataRows[k][j]
        == CellOpen + CellProperties(Nth(opts.columnWidths, j))
           + ParagraphFragment(PlainRun(bodyRows[k][j]), None) + CellClose
    {
      HtmlDataCell(headRows, bodyRows, settings, render, k, j);
      HtmlCellShape(bodyRows[k][j], j, settings, render);
    }
  }

  /** As intended: the grid of the HTML table is exactly the resolved widths (none when
      no widths are given), and every body cell holds its text in a paragraph with the
      column's resolved style, under the column's resolved width. Without a properties
      object these are the `:column_widths` and `:column_styles` options. */
  lemma HtmlTableIntended(headRows: seq<seq<string>>, bodyRows: seq<seq<string>>, opts: TableOptions, render: Renderer)
    requires QuoteFree(GridText(ResolveSettings(opts).widths))
    ensures var f := HtmlTable(Extracted(headRows, bodyRows), opts, render);
      var head := TableOpen + render(ResolveSettings(opts).properties);
      ParseGrid(f[|head|..]).Some? && ParseGrid(f[|head|..]).value.0 == GridText(ResolveSettings(opts).widths)
    ensures forall k, j ::
      (0 <= k < |bodyRows| && 0 <= j < |bodyRows[k]|
       && StyleTagFree(Nth(ResolveSettings(opts).widths, j)) && StyleTagFree(Nth(ResolveSettings(opts).styles, j)))
      ==>
        HtmlMarkup(headRows, bodyRows, ResolveSettings(opts), render).dataRows[k][j]
          == CellOpen + CellProperties(Nth(ResolveSettings(opts).widths, j))
             + ParagraphFragment(PlainRun(bodyRows[k][j]), Nth(ResolveSettings(opts).styles, j)) + CellClose
  {
    var settings := ResolveSettings(opts);
    var t := HtmlMarkup(headRows, bodyRows, settings, render);
    RenderedGrid(t);
    forall k, j | 0 <= k < |bodyRows| && 0 <= j < |bodyRows[k]|
      && StyleTagFree(Nth(settings.widths, j)) && StyleTagFree(Nth(settings.styles, j))
      ensures t.dataRows[k][j]
        == CellOpen + CellProperties(Nth(settings.widths, j))
           + ParagraphFragment(PlainRun(bodyRows[k][j]), Nth(settings.styles, j)) + CellClose
    {
      HtmlDataCell(headRows, bodyRows, settings, render, k, j);
      HtmlCellShape(bodyRows[k][j], j, settings, render);
    }
  }

  /** The corrected resolution with styles only: no grid, no `tcPr`, and each column's
      style in its cells. */
  lemma HtmlStylesKept(headRows: seq<seq<string>>, bodyRows: seq<seq<string>>, opts: TableOptions, render: Renderer)
    requires opts.tableProperties.None? && opts.columnWidths.None?
    ensures var f := HtmlTable(Extracted(headRows, bodyRows), opts, render);
      var head := TableOpen + render(ResolveSettings(opts).properties);
      ParseGrid(f[|head|..]).Some? && ParseGrid(f[|head|..]).value.0 == None
    ensures forall k, j ::
      (0 <= k < |bodyRows| && 0 <= j < |bodyRows[k]| && StyleTagFree(Nth(opts.columnStyles, j)))
      ==>
        HtmlMarkup(headRows, bodyRows, ResolveSettings(opts), render).dataRows[k][j]
          == CellOpen + ParagraphFragment(PlainRun(bodyRows[k][j]), Nth(opts.columnStyles, j)) + CellClose
  {
    var settings := ResolveSettings(opts);
    var t := HtmlMarkup(headRows, bodyRows, settings, render);
    RenderedGrid(t);
    forall k, j | 0 <= k < |bodyRows| && 0 <= j < |bodyRows[k]| && StyleTagFree(Nth(opts.columnStyles, j))
      ensures t.dataRows[k][j] == CellOpen + ParagraphFragment(PlainRun(bodyRows[k][j]), Nth(opts.columnStyles, j)) + CellClose
    {
      HtmlDataCell(headRows, bodyRows, settings, render, k, j);
      HtmlCellShape(bodyRows[k][j], j, settings, render);
      assert CellOpen + CellProperties(None) == CellOpen;
    }
  }

  /** The corrected resolution with widths and styles: both reach the cells. */
  lemma HtmlWidthsAndStylesKept(headRows: seq<seq<string>>, bodyRows: seq<seq<string>>, opts: TableOptions, render: Renderer)
    requires opts.tableProperties.None? && opts.columnWidths.Some? && opts.columnStyles.Some?
    ensures forall k, j ::
      (0 <= k < |bodyRows| && 0 <= j < |bodyRows[k]|
       && StyleTagFree(Nth(opts.columnWidths, j)) && StyleTagFree(Nth(opts.columnStyles, j)))
      ==>
        HtmlMarkup(headRows, bodyRows, ResolveSettings(opts), render).dataRows[k][j]
          == CellOpen + CellProperties(Nth(opts.columnWidths, j))
             + ParagraphFragment(PlainRun(bodyRows[k][j]), Nth(opts.columnStyles, j)) + CellClose
  {
    var settings := ResolveSettings(opts);
    var t := HtmlMarkup(headRows, bodyRows, settings, render);
    forall k, j | 0 <= k < |bodyRows| && 0 <= j < |bodyRows[k]|
      && StyleTagFree(Nth(opts.columnWidths, j)) && StyleTagFree(Nth(opts.columnStyles, j))
      ensures t.dataRows[k][j]
        == CellOpen + CellProperties(Nth(opts.columnWidths, j))
           + ParagraphFragment(PlainRun(bodyRows[k][j]), Nth(opts.columnStyles, j)) + CellClose
    {
      HtmlDataCell(headRows, bodyRows, settings, render, k, j);
      HtmlCellShape(bodyRows[k][j], j, settings, render);
    }
  }
}

=== FILE: layout.dfy ===
/** The layout of a table built by `create_table_fragment`: the empty mapping, the
    skeleton around the data rows, the grid and header row read back from the markup,
    and the cells of each data row. */
module TableLayout {
  import opened Results
  import opened Xml
  import opened Content
  import opened Tables
  import opened ParagraphMerge
  import opened MarkupMerge
  import opened Composer

  /** An empty column mapping renders as the empty string, whatever the options. */
  lemma EmptyTable(opts: TableOptions, render: Renderer)
    ensures TableFragment([], opts, render) == Ok("")
  {
  }

  /** The data rows of a table, top to bottom: row `k` is the row of cells for index `k`. */
  function TableRows(columns: seq<Column>, settings: TableSettings, render: Renderer): (rows: seq<seq<string>>)
    requires ColumnsOk(columns)
    ensures |rows| == RowCount(columns)
  {
    ColumnsOkByRows(columns);
    seq(RowCount(columns), k requires 0 <= k < RowCount(columns) => RowCells(columns, |columns|, k, settings, render).value)
  }

  /** The header rows of a table: the keys, unless the header is skipped. */
  function HeaderRows(columns: seq<Column>, settings: TableSettings): seq<seq<string>> {
    if settings.skipHeader then [] else [Keys(columns)]
  }

  lemma MarkupLayout(columns: seq<Column>, settings: TableSettings, render: Renderer)
    requires ColumnsOk(columns)
    ensures TableMarkupOf(columns, settings, render)
      == Ok(TableMarkup(render(settings.properties), GridText(settings.widths), HeaderRows(columns, settings), TableRows(columns, settings, render)))
  {
    var m := TableMarkupOf(columns, settings, render).value;
    assert m.dataRows == TableRows(columns, settings, render);
  }

  /** A non-empty mapping renders as `<w:tbl>`, the printed properties, the grid of the
      resolved widths, the header row of the keys unless skipped, and the data rows. */
  lemma TableFragmentLayout(columns: seq<Column>, opts: TableOptions, render: Renderer)
    requires columns != [] && ColumnsOk(columns)
    ensures var s := ResolveSettings(opts);
      TableFragment(columns, opts, render)
        == Ok(RenderTable(TableMarkup(render(s.properties), GridText(s.widths), HeaderRows(columns, s), TableRows(columns, s, render))))
  {
    MarkupLayout(columns, ResolveSettings(opts), render);
  }

  /** One more cell on the right: the row so far, then cell `j - 1`. */
  lemma RowCellsStep(columns: seq<Column>, j: nat, index: nat, settings: TableSettings, render: Renderer)
    requires 0 < j <= |columns| && RowCells(columns, j, index, settings, render).Ok?
    ensures RowCells(columns, j - 1, index, settings, render).Ok?
    ensures TableCell(columns, index, j - 1, settings, render).Ok?
    ensures RowCells(columns, j, index, settings, render).value
      == RowCells(columns, j - 1, index, settings, render).value + [TableCell(columns, index, j - 1, settings, render).value]
  {
  }

  lemma SnocIndex(cells: seq<string>, cell: string, m: nat)
    requires m <= |cells|
    ensures m < |cells| ==> (cells + [cell])[m] == cells[m]
    ensures m == |cells| ==> (cells + [cell])[m] == cell
  {
  }

  /** When the first `j` cells of a row build, so does every shorter prefix, and each
      prefix is the one before it with one more cell on the right. */
  lemma RowCellsSteps(columns: seq<Column>, j: nat, index: nat, settings: TableSettings, render: Renderer)
    requires j <= |columns| && RowCells(columns, j, index, settings, render).Ok?
    ensures forall i :: 0 <= i <= j ==> RowCells(columns, i, index, settings, render).Ok?
    ensures forall m :: 0 <= m < j ==> TableCell(columns, index, m, settings, render).Ok?
    ensures forall i :: 0 < i <= j ==>
      RowCells(columns, i, index, settings, render).value
        == RowCells(columns, i - 1, index, settings, render).value + [TableCell(columns, index, i - 1, settings, render).value]
  {
    forall i | 0 < i <= j
      ensures RowCells(columns, i, index, settings, render).Ok?
      ensures RowCells(columns, i, index, settings, render).value
        == RowCells(columns, i - 1, index, settings, render).value + [TableCell(columns, index, i - 1, settings, render).value]
    {
      RowCellsStep(columns, i, index, settings, render);
    }
  }

  /** The first `j` cells of a row are cells `0` to `j - 1`, left to right. */
  lemma RowCellsContent(columns: seq<Column>, j: nat, index: nat, settings: TableSettings, render: Renderer)
    requires j <= |columns| && RowCells(columns, j, index, settings, render).Ok?
    ensures |RowCells(columns, j, index, settings, render).value| == j
    ensures forall m :: 0 <= m < j ==>
      TableCell(columns, index, m, settings, render).Ok?
      && RowCells(columns, j, index, settings, render).value[m] == TableCell(columns, index, m, settings, render).value
  {
    RowCellsSteps(columns, j, index, settings, render);
    var prefixes := seq(j + 1, i requires 0 <= i <= j => RowCells(columns, i, index, settings, render).value);
    var cells := seq(j, m requires 0 <= m < j => TableCell(columns, index, m, settings, render).value);
    SnocChain(prefixes, cells, j);
  }

  /** Data row `k` holds exactly one cell per column, in key order, and cell `j` is
      the merged cell for entry `k` of column `j`. */
  lemma DataRowLayout(columns: seq<Column>, settings: TableSettings, render: Renderer, k: nat)
    requires ColumnsOk(columns) && k < RowCount(columns)
    ensures var row := TableRows(columns, settings, render)[k];
      && |row| == |columns|
      && forall j :: 0 <= j < |columns| ==> row[j] == TableCell(columns, k, j, settings, render).value
  {
    ColumnsOkByRows(columns);
    RowCellsContent(columns, |columns|, k, settings, render);
  }

  /** Every data cell starts with `<w:tc>`, carries the `tcPr` of its column's width
      when there is one (`tcPr` is empty exactly when there is no widths list, the list
      is too short, or its entry for the column is `nil`), and ends in a paragraph right
      before `</w:tc>`. */
  lemma DataCellShape(columns: seq<Column>, settings: TableSettings, render: Renderer, k: nat, j: nat)
    requires ColumnsOk(columns) && k < RowCount(columns) && j < |columns|
    requires StyleTagFree(Nth(settings.widths, j))
    ensures |TableRows(columns, settings, render)[k]| == |columns|
    ensures var cell := TableRows(columns, settings, render)[k][j];
      && StartsWith(cell, CellOpen + CellProperties(Nth(settings.widths, j)))
      && (CellProperties(Nth(settings.widths, j)) == "" <==> Nth(settings.widths, j).None?)
      && (CellProperties(Nth(settings.widths, j)) != "" <==>
            settings.widths.Some? && j < |settings.widths.value| && settings.widths.value[j].Some?)
      && EndsInParagraph(cell)
  {
    DataRowLayout(columns, settings, render, k);
    var cell := TableCell(columns, k, j, settings, render);
    assert cell.Ok? by {
      ColumnsOkByRows(columns);
      assert RowOk(columns, k);
    }
  }

  /** Reading a built table back: after `<w:tbl>` and the printed properties comes a grid
      that decodes to exactly the resolved widths (none when no widths were given), then
      a header row that decodes to exactly the keys, in order, unless the header is
      skipped, in which case the data rows follow the grid directly. */
  lemma TableReadsBack(columns: seq<Column>, opts: TableOptions, render: Renderer)
    requires columns != [] && ColumnsOk(columns)
    requires QuoteFree(GridText(ResolveSettings(opts).widths))
    ensures var s := ResolveSettings(opts);
      var f := TableFragment(columns, opts, render).value;
      var head := TableOpen + render(s.properties);
      && StartsWith(f, head)
      && ParseGrid(f[|head|..]).Some?
      && ParseGrid(f[|head|..]).value.0 == GridText(s.widths)
      && (!opts.skipHeader ==>
            ParseHeaderRow(ParseGrid(f[|head|..]).value.1)
              == Some((Keys(columns), DataRowsXml(TableRows(columns, s, render)) + TableClose)))
      && (opts.skipHeader ==> ParseGrid(f[|head|..]).value.1 == DataRowsXml(TableRows(columns, s, render)) + TableClose)
  {
    var s := ResolveSettings(opts);
    var t := TableMarkup(render(s.properties), GridText(s.widths), HeaderRows(columns, s), TableRows(columns, s, render));
    TableFragmentLayout(columns, opts, render);
    MarkupReadsBack(t);
  }

  /** The row count is the length of the longest column: a `nil` column and an empty
      array contribute no rows, a scalar contributes one. */
  lemma RowCountExample()
    ensures RowCount([
      Column("column_1", Seq([Text("Alpha"), Text("One"), Scalar("1")])),
      Column("column_2", Seq([Text("Bravo"), Text("Two"), Scalar("2")])),
      Column("Column 3", Nil),
      Column("Column 4", Seq([])),
      Column("column_5", Text("Echo"))]) == 3
  {
    var columns := [
      Column("column_1", Seq([Text("Alpha"), Text("One"), Scalar("1")])),
      Column("column_2", Seq([Text("Bravo"), Text("Two"), Scalar("2")])),
      Column("Column 3", Nil),
      Column("Column 4", Seq([])),
      Column("column_5", Text("Echo"))];
    assert RowCountFrom(3, columns[1..]) == 3 by {
      assert columns[1..][1..] == columns[2..];
      assert columns[2..][1..] == columns[3..];
      assert columns[3..][1..] == columns[4..];
      assert columns[4..][1..] == [];
    }
  }
}

=== FILE: markup_merge.dfy ===
/** How the paragraph merge treats the markup the composer emits: runs, paragraph
    heads and cell heads pass through it unchanged. */
module MarkupMerge {
  import opened Results
  import opened Xml
  import opened Fragments
  import opened Tables
  import opened ParagraphMerge

  /** A value interpolated into an attribute that contains no tag. */
  predicate TagFree(s: string) {
    '<' !in s
  }

  predicate RunTagFree(run: Run) {
    run.StyledRun? ==> TagFree(run.style)
  }

  predicate StyleTagFree(style: Option<string>) {
    style.Some? ==> TagFree(style.value)
  }

  // The fixed pieces of markup, one at a time: each is split into tags that
  // differ from the boundary early on, and attribute text without tags.

  lemma InertRunStyleOpen()
    ensures Inert(RunStyleOpen)
  {
    assert RunStyleOpen == "<w:rPr>" + "<w:rStyle w:val=\"";
    InertTag("<w:rPr>", 1);
    InertTag("<w:rStyle w:val=\"", 1);
    InertConcat("<w:rPr>", "<w:rStyle w:val=\"");
  }

  lemma InertRunStyleClose()
    ensures Inert(RunStyleClose)
  {
    assert RunStyleClose == "\"/>" + "</w:rPr>";
    InertPlain("\"/>");
    InertTag("</w:rPr>", 4);
    InertConcat("\"/>", "</w:rPr>");
  }

  lemma InertRunOpen()
    ensures Inert(RunOpen)
  {
    InertTag(RunOpen, 1);
  }

  lemma InertTextOpen()
    ensures Inert(TextOpen)
  {
    assert TextOpen == "<w:t" + " xml:space=" + "\"preserve\">";
    InertTag("<w:t", 1);
    InertPlain(" xml:space=");
    InertPlain("\"preserve\">");
    InertConcat("<w:t", " xml:space=");
    InertConcat("<w:t" + " xml:space=", "\"preserve\">");
  }

  lemma InertRunClose()
    ensures Inert(RunClose)
  {
    assert RunClose == "</w:t>" + "</w:r>";
    InertTag("</w:t>", 4);
    InertTag("</w:r>", 4);
    InertConcat("</w:t>", "</w:r>");
  }

  lemma InertParagraphOpen()
    ensures Inert(ParagraphOpen)
  {
    InertTag(ParagraphOpen, 1);
  }

  lemma InertParagraphStyleOpen()
    ensures Inert(ParagraphStyleOpen)
  {
    assert ParagraphStyleOpen == "<w:pPr>" + "<w:pStyle w:val=\"";
    InertTag("<w:pPr>", 1);
    InertTag("<w:pStyle w:val=\"", 1);
    InertConcat("<w:pPr>", "<w:pStyle w:val=\"");
  }

  lemma InertParagraphStyleClose()
    ensures Inert(ParagraphStyleClose)
  {
    assert ParagraphStyleClose == "\"/>" + "</w:pPr>";
    InertPlain("\"/>");
    InertTag("</w:pPr>", 5);
    InertConcat("\"/>", "</w:pPr>");
  }

  lemma InertCellOpen()
    ensures Inert("<w:tc>")
  {
    InertTag("<w:tc>", 1);
  }

  lemma InertCellPropertiesOpen()
    ensures Inert(CellPropertiesOpen)
  {
    InertTag("<w:tcPr>", 1);
    InertTag("<w:tcW", 1);
    InertPlain(" w:type=\"dxa\"");
    InertPlain(" w:w=\"");
    InertConcat("<w:tcPr>", "<w:tcW");
    InertConcat("<w:tcPr>" + "<w:tcW", " w:type=\"dxa\"");
    InertConcat("<w:tcPr>" + "<w:tcW" + " w:type=\"dxa\"", " w:w=\"");
  }

  lemma InertCellPropertiesClose()
    ensures Inert(CellPropertiesClose)
  {
    InertPlain("\"/>");
    InertTag("</w:tcPr>", 4);
    InertConcat("\"/>", "</w:tcPr>");
  }

  /** An attribute value without tags, between two inert pieces, is inert. */
  lemma InertAround(open: string, value: string, close: string)
    requires Inert(open) && TagFree(value) && Inert(close)
    ensures Inert(open + value + close)
  {
    InertPlain(value);
    InertConcat(open, value);
    InertConcat(open + value, close);
  }

  lemma InertRunProperties(run: Run)
    requires RunTagFree(run)
    ensures Inert(RunProperties(run))
  {
    if run.StyledRun? {
      InertRunStyleOpen();
      InertRunStyleClose();
      InertAround(RunStyleOpen, run.style, RunStyleClose);
    } else {
      InertPlain("");
    }
  }

  /** A run is left as it is by the merge. */
  lemma InertRun(run: Run)
    requires RunTagFree(run)
    ensures Inert(RunFragment(run))
  {
    var head := RunOpen + RunProperties(run) + TextOpen;
    assert Inert(head) by {
      InertRunOpen();
      InertRunProperties(run);
      InertTextOpen();
      InertConcat(RunOpen, RunProperties(run));
      InertConcat(RunOpen + RunProperties(run), TextOpen);
    }
    InertRunClose();
    InertAround(head, Escape(run.text), RunClose);
  }

  /** The head of a paragraph, `<w:p>` and its optional paragraph style, is left as it is. */
  lemma InertParagraphHead(style: Option<string>)
    requires StyleTagFree(style)
    ensures Inert(ParagraphOpen + ParagraphProperties(style))
  {
    InertParagraphOpen();
    if style.Some? {
      InertParagraphStyleOpen();
      InertParagraphStyleClose();
      InertAround(ParagraphStyleOpen, style.value, ParagraphStyleClose);
      InertConcat(ParagraphOpen, ParagraphProperties(style));
    } else {
      assert ParagraphOpen + ParagraphProperties(style) == ParagraphOpen;
    }
  }

  lemma InertCellProperties(width: string)
    requires TagFree(width)
    ensures Inert(CellPropertiesOpen + width + CellPropertiesClose)
  {
    InertCellPropertiesOpen();
    InertCellPropertiesClose();
    InertAround(CellPropertiesOpen, width, CellPropertiesClose);
  }

  /** The head of a cell, `<w:tc>` and its optional width, is left as it is. */
  lemma InertCellHead(width: Option<string>)
    requires StyleTagFree(width)
    ensures Inert("<w:tc>" + CellProperties(width))
  {
    InertCellOpen();
    if width.Some? {
      InertCellProperties(width.value);
      InertConcat("<w:tc>", CellProperties(width));
    } else {
      assert "<w:tc>" + CellProperties(width) == "<w:tc>";
    }
  }

  lemma MergedCellStart(cell: string, width: Option<string>)
    requires StartsWith(cell, "<w:tc>" + CellProperties(width))
    ensures StartsWith(MergeParagraphs(cell), "<w:tc>")
  {
    var rest := cell[6..];
    assert cell == "<w:tc>" + rest;
    MergeTagPrefix("<w:tc>", 1, rest);
  }

  lemma MergedCellHead(cell: string, width: Option<string>)
    requires StartsWith(cell, "<w:tc>" + CellProperties(width)) && StyleTagFree(width)
    ensures StartsWith(MergeParagraphs(cell), "<w:tc>" + CellProperties(width))
  {
    var head := "<w:tc>" + CellProperties(width);
    var rest := cell[|head|..];
    assert cell == head + rest;
    InertCellHead(width);
    assert MergeParagraphs(head + rest) == head + MergeParagraphs(rest);
    assert (head + MergeParagraphs(rest))[..|head|] == head;
  }

  /** Merging a cell keeps `<w:tc>` at its start, its width properties when the width
      holds no tag, and a paragraph right before `</w:tc>`. */
  lemma MergedCellShape(cell: string, width: Option<string>)
    requires StartsWith(cell, "<w:tc>" + CellProperties(width)) && EndsInParagraph(cell)
    ensures StartsWith(MergeParagraphs(cell), "<w:tc>") && EndsInParagraph(MergeParagraphs(cell))
    ensures StyleTagFree(width) ==> StartsWith(MergeParagraphs(cell), "<w:tc>" + CellProperties(width))
  {
    MergeKeepsCellEnd(cell);
    MergedCellStart(cell, width);
    if StyleTagFree(width) {
      MergedCellHead(cell, width);
    }
  }
}

=== FILE: merge.dfy ===
/** The paragraph merge the table builders apply to every emitted cell:
    Ruby's `gsub("</w:p><w:p>", '')`, a single left-to-right pass that deletes each
    non-overlapping occurrence of the boundary between two adjacent paragraphs. */
module ParagraphMerge {
  import opened Xml

  const ParagraphBoundary: string := "</w:p><w:p>"

  predicate OccursAt(s: string, i: nat) {
    i + |ParagraphBoundary| <= |s| && s[i..i + |ParagraphBoundary|] == ParagraphBoundary
  }

  predicate Occurs(s: string) {
    exists i: nat | i < |s| :: OccursAt(s, i)
  }

  function MergeParagraphs(s: string): (r: string)
    decreases |s|
    ensures |r| <= |s|
  {
    if |s| < |ParagraphBoundary| then s
    else if s[..|ParagraphBoundary|] == ParagraphBoundary then MergeParagraphs(s[|ParagraphBoundary|..])
    else [s[0]] + MergeParagraphs(s[1..])
  }

  /** One step of the scan over a position where no boundary starts. */
  lemma MergeStep(s: string)
    requires |s| > 0 && !OccursAt(s, 0)
    ensures MergeParagraphs(s) == [s[0]] + MergeParagraphs(s[1..])
  {
  }

  /** A boundary at the scan position is deleted. */
  lemma MergeBoundary(s: string)
    ensures MergeParagraphs(ParagraphBoundary + s) == MergeParagraphs(s)
  {
    var t := ParagraphBoundary + s;
    assert t[..|ParagraphBoundary|] == ParagraphBoundary && t[|ParagraphBoundary|..] == s;
  }

  /** Text without any `<` passes through unchanged and does not disturb what follows. */
  lemma {:induction false} MergePlainPrefix(a: string, s: string)
    requires '<' !in a
    ensures MergeParagraphs(a + s) == a + MergeParagraphs(s)
  {
    if a != [] {
      var t := a + s;
      assert t[0] == a[0] && t[0] != '<';
      assert |t| < |ParagraphBoundary| || t[..|ParagraphBoundary|][0] != ParagraphBoundary[0];
      MergeStep(t);
      assert t[1..] == a[1..] + s;
      MergePlainPrefix(a[1..], s);
      calc {
        MergeParagraphs(a + s);
        [a[0]] + MergeParagraphs(a[1..] + s);
        [a[0]] + (a[1..] + MergeParagraphs(s));
        { assert a == [a[0]] + a[1..]; }
        a + MergeParagraphs(s);
      }
    } else {
      assert a + s == s;
    }
  }

  /** A tag that starts with `<` and cannot be the start of a boundary (it differs
      from `</w:p><w:p>` at position k) passes through unchanged. */
  lemma MergeTagPrefix(tag: string, k: nat, s: string)
    requires |tag| > 0 && tag[0] == '<' && '<' !in tag[1..]
    requires k < |tag| && k < |ParagraphBoundary| && tag[k] != ParagraphBoundary[k]
    ensures MergeParagraphs(tag + s) == tag + MergeParagraphs(s)
  {
    var t := tag + s;
    assert MergeParagraphs(t) == [t[0]] + MergeParagraphs(t[1..]) by {
      assert t[k] == tag[k];
      assert |t| < |ParagraphBoundary| || t[..|ParagraphBoundary|][k] != ParagraphBoundary[k];
      MergeStep(t);
    }
    assert MergeParagraphs(t[1..]) == tag[1..] + MergeParagraphs(s) by {
      assert t[1..] == tag[1..] + s;
      MergePlainPrefix(tag[1..], s);
    }
    assert [t[0]] + (tag[1..] + MergeParagraphs(s)) == tag + MergeParagraphs(s) by {
      assert tag == [tag[0]] + tag[1..];
    }
  }

  /** Without any occurrence of the boundary the merge changes nothing ... */
  lemma {:induction false} MergeWithoutBoundary(s: string)
    requires !Occurs(s)
    ensures MergeParagraphs(s) == s
  {
    if |s| >= |ParagraphBoundary| {
      assert !OccursAt(s, 0);
      assert !Occurs(s[1..]) by {
        forall i: nat | OccursAt(s[1..], i)
          ensures false
        {
          assert s[1..][i..i + |ParagraphBoundary|] == s[i + 1..i + 1 + |ParagraphBoundary|];
          assert OccursAt(s, i + 1);
        }
      }
      MergeWithoutBoundary(s[1..]);
    }
  }

  /** ... and with one it strictly shortens the text. */
  lemma {:induction false} MergeShortens(s: string, i: nat)
    requires OccursAt(s, i)
    ensures |MergeParagraphs(s)| < |s|
    decreases i
  {
    if !OccursAt(s, 0) {
      assert s[..|ParagraphBoundary|] != ParagraphBoundary;
      assert i > 0;
      assert s[1..][i - 1..i - 1 + |ParagraphBoundary|] == s[i..i + |ParagraphBoundary|];
      MergeShortens(s[1..], i - 1);
    }
  }

  /** The merge leaves a text unchanged exactly when no paragraph boundary occurs in it. */
  lemma MergeFixpoint(s: string)
    ensures MergeParagraphs(s) == s <==> !Occurs(s)
  {
    if Occurs(s) {
      var i: nat :| OccursAt(s, i);
      MergeShortens(s, i);
    } else {
      MergeWithoutBoundary(s);
    }
  }

  /** The two ways a table cell can end: a closed paragraph, or the empty paragraph
      the cell builder appends. */
  const ClosedParagraphCellEnd: string := "</w:p></w:tc>"
  const EmptyParagraphCellEnd: string := "<w:p/></w:tc>"

  predicate EndsInParagraph(cell: string) {
    EndsWith(cell, ClosedParagraphCellEnd) || EndsWith(cell, EmptyParagraphCellEnd)
  }

  /** No boundary can start so close to the end of a cell that it would overlap it. */
  lemma NoBoundaryNearCellEnd(s: string, tail: string)
    requires tail == ClosedParagraphCellEnd || tail == EmptyParagraphCellEnd
    requires EndsWith(s, tail) && |s| < |tail| + |ParagraphBoundary|
    ensures !OccursAt(s, 0)
  {
    var d := |s| - |tail|;
    assert forall m :: d <= m < |s| ==> s[m] == tail[m - d];
    var m := if d == 0 then (if tail == ClosedParagraphCellEnd then 7 else 1)
             else if d == 6 then (if tail == ClosedParagraphCellEnd then 7 else 10)
             else d;
    assert s[m] != ParagraphBoundary[m];
    assert |s| < |ParagraphBoundary| || s[..|ParagraphBoundary|][m] != ParagraphBoundary[m];
  }

  /** The end of a cell, standing alone, is left as it is. */
  lemma MergeCellEnd(tail: string)
    requires tail == ClosedParagraphCellEnd || tail == EmptyParagraphCellEnd
    ensures MergeParagraphs(tail) == tail
  {
    if tail == ClosedParagraphCellEnd {
      MergeClosedCellEnd();
    } else {
      MergeEmptyCellEnd();
    }
  }

  lemma MergeClosedCellEnd()
    ensures MergeParagraphs(ClosedParagraphCellEnd) == ClosedParagraphCellEnd
  {
    var t := ClosedParagraphCellEnd;
    assert MergeParagraphs(t) == [t[0]] + MergeParagraphs(t[1..]) by {
      assert t[7] != ParagraphBoundary[7];
      assert t[..|ParagraphBoundary|][7] != ParagraphBoundary[7];
      MergeStep(t);
    }
    assert MergeParagraphs(t[1..]) == t[1..] by {
      assert t[1..] == "/w:p>" + "</w:tc>";
      MergePlainPrefix("/w:p>", "</w:tc>");
    }
    assert t == [t[0]] + t[1..];
  }

  lemma MergeEmptyCellEnd()
    ensures MergeParagraphs(EmptyParagraphCellEnd) == EmptyParagraphCellEnd
  {
    assert EmptyParagraphCellEnd == "<w:p/>" + "</w:tc>";
    MergeTagPrefix("<w:p/>", 1, "</w:tc>");
  }

  lemma {:induction false} MergeKeepsTail(s: string, tail: string)
    requires tail == ClosedParagraphCellEnd || tail == EmptyParagraphCellEnd
    requires EndsWith(s, tail)
    ensures EndsWith(MergeParagraphs(s), tail)
    decreases |s|
  {
    if |s| == |tail| {
      assert s == tail;
      MergeCellEnd(tail);
    } else if OccursAt(s, 0) {
      var rest := s[|ParagraphBoundary|..];
      assert |s| >= |tail| + |ParagraphBoundary| by {
        if |s| < |tail| + |ParagraphBoundary| {
          NoBoundaryNearCellEnd(s, tail);
        }
      }
      assert EndsWith(rest, tail) by { assert rest[|rest| - |tail|..] == s[|s| - |tail|..]; }
      MergeKeepsTail(rest, tail);
    } else {
      var rest := s[1..];
      assert EndsWith(rest, tail) by { assert rest[|rest| - |tail|..] == s[|s| - |tail|..]; }
      MergeKeepsTail(rest, tail);
      MergeStep(s);
      EndsWithPrepend([s[0]], MergeParagraphs(rest), tail);
    }
  }

  /** Merging never removes the paragraph that closes a cell. */
  lemma MergeKeepsCellEnd(s: string)
    requires EndsInParagraph(s)
    ensures EndsInParagraph(MergeParagraphs(s))
  {
    if EndsWith(s, ClosedParagraphCellEnd) {
      MergeKeepsTail(s, ClosedParagraphCellEnd);
    } else {
      MergeKeepsTail(s, EmptyParagraphCellEnd);
    }
  }

  /** Markup that the merge passes over untouched, whatever follows it: no boundary
      can start inside it. */
  ghost predicate Inert(p: string) {
    forall s :: MergeParagraphs(p + s) == p + MergeParagraphs(s)
  }

  lemma InertPlain(a: string)
    requires '<' !in a
    ensures Inert(a)
  {
    forall s ensures MergeParagraphs(a + s) == a + MergeParagraphs(s) {
      MergePlainPrefix(a, s);
    }
  }

  lemma InertTag(tag: string, k: nat)
    requires |tag| > 0 && tag[0] == '<' && '<' !in tag[1..]
    requires k < |tag| && k < |ParagraphBoundary| && tag[k] != ParagraphBoundary[k]
    ensures Inert(tag)
  {
    forall s ensures MergeParagraphs(tag + s) == tag + MergeParagraphs(s) {
      MergeTagPrefix(tag, k, s);
    }
  }

  lemma InertConcat(a: string, b: string)
    requires Inert(a) && Inert(b)
    ensures Inert(a + b)
  {
    forall s ensures MergeParagraphs((a + b) + s) == (a + b) + MergeParagraphs(s) {
      InertAt(a, b + s);
      InertAt(b, s);
      ConcatThroughMerge(a, b, s);
    }
  }

  lemma InertAt(p: string, s: string)
    requires Inert(p)
    ensures MergeParagraphs(p + s) == p + MergeParagraphs(s)
  {
  }

  lemma ConcatThroughMerge(a: string, b: string, s: string)
    requires MergeParagraphs(a + (b + s)) == a + MergeParagraphs(b + s)
    requires MergeParagraphs(b + s) == b + MergeParagraphs(s)
    ensures MergeParagraphs((a + b) + s) == (a + b) + MergeParagraphs(s)
  {
    Assoc(a, b, s);
    Assoc(a, b, MergeParagraphs(s));
  }

  lemma Assoc(a: string, b: string, c: string)
    ensures (a + b) + c == a + (b + c)
  {
  }
}

=== FILE: replace.dfy ===
/** The dispatch of `replace_all`: which kind of replacement each content value asks
    for, and the fragments that replace every occurrence of the source text. Finding
    the occurrences and editing the document are not part of this model. */
module Replace {
  import opened Results
  import opened Xml
  import opened Content
  import opened Fragments
  import opened Tables
  import opened Composer
  import opened Dispatch
  import opened TableLayout

  /** How the runs holding the source text are replaced: by text in place (keeping the
      run's formatting), by one run fragment, or by body-level fragments. */
  datatype Replacement =
    | WithText(text: string)
    | WithRun(fragment: string)
    | WithBody(fragments: Result<seq<string>>)

  /** `replace_all`, as a classifier of its replacement argument. A hash is rendered
      with `:create_table` set, so any hash becomes a table; an element that is not a
      `w:tbl` is spliced in as a run; everything else is rendered without options. */
  function ReplaceAction(v: ContentValue, render: Renderer): (a: Replacement)
    ensures a.WithText? <==> v.Text?
    ensures a.WithRun? <==> v.Image? || (v.Raw? && !v.isTable)
    ensures a.WithBody? <==> !(v.Text? || v.Image? || (v.Raw? && !v.isTable))
    ensures a.WithBody? ==> (a.fragments.Ok? <==> BodyOk(v, v.Styled? || v.Columns?))
  {
    match v
    case Text(text) => WithText(text)
    case Image(run) => WithRun(run)
    case Raw(isTable, xml) => if isTable then WithBody(Ok([xml])) else WithRun(xml)
    case Styled(_, _) => WithBody(BodyFragments(v, BodyOptions(true, None), render))
    case Columns(_, _, _) => WithBody(BodyFragments(v, BodyOptions(true, None), render))
    case _ => WithBody(BodyFragments(v, NoBodyOptions, render))
  }

  /** An image replaces each occurrence by its run; it is not wrapped in a paragraph,
      unlike an image rendered in body position. */
  lemma ReplaceImage(run: string, render: Renderer)
    ensures ReplaceAction(Image(run), render) == WithRun(run)
    ensures BodyFragments(Image(run), NoBodyOptions, render) == Ok([ParagraphOpen + run + ParagraphClose])
  {
  }

  /** A column hash always becomes exactly one table, whether or not it carries
      `:create_table` itself, using its own table options; the empty hash gives the
      empty table fragment. */
  lemma ReplaceColumns(columns: seq<Column>, ownFlag: bool, options: TableOptions, render: Renderer)
    requires ColumnsOk(columns)
    ensures var a := ReplaceAction(Columns(columns, ownFlag, options), render);
      && a.WithBody? && a.fragments.Ok? && |a.fragments.value| == 1
      && a.fragments.value[0] == TableFragment(columns, options, render).value
      && (columns == [] <==> a.fragments.value[0] == "")
      && (columns != [] ==> StartsWith(a.fragments.value[0], TableOpen + render(ResolveSettings(options).properties)))
  {
    ColumnsFragment(columns, ownFlag, options, BodyOptions(true, None), render);
  }

  /** A hash with `:content` also becomes a table rather than a paragraph: the table of
      its `:content` and `:style` entries, without a grid, whose header row reads back
      as their keys in the hash's order. */
  lemma ReplaceStyled(content: string, style: StyleKey, render: Renderer)
    ensures var a := ReplaceAction(Styled(content, style), render);
      && a.WithBody? && a.fragments.Ok? && |a.fragments.value| == 1
      && StartsWith(a.fragments.value[0], TableOpen) && !StartsWith(a.fragments.value[0], ParagraphOpen)
    ensures var f := ReplaceAction(Styled(content, style), render).fragments.value[0];
      var head := TableOpen + render(ResolveSettings(NoTableOptions).properties);
      && StartsWith(f, head)
      && ParseGrid(f[|head|..]).Some? && ParseGrid(f[|head|..]).value.0 == None
      && ParseHeaderRow(ParseGrid(f[|head|..]).value.1).Some?
      && ParseHeaderRow(ParseGrid(f[|head|..]).value.1).value.0 == StyledKeys(style)
  {
    StyledTable(content, style, BodyOptions(true, None), render);
    var columns := StyledColumns(content, style);
    assert ReplaceAction(Styled(content, style), render).fragments.value[0] == TableFragment(columns, NoTableOptions, render).value;
    TableReadsBack(columns, NoTableOptions, render);
  }

  /** Any other value is rendered in body position without options: `nil` and scalars
      as one paragraph, arrays element by element. */
  lemma ReplaceOther(v: ContentValue, render: Renderer)
    requires v.Nil? || v.Scalar? || v.Seq?
    ensures ReplaceAction(v, render) == WithBody(BodyFragments(v, NoBodyOptions, render))
    ensures v.Seq? ==> ReplaceAction(v, render) == WithBody(MultipleFragments(v.items, render))
    ensures !v.Seq? ==> ReplaceAction(v, render) == WithBody(Ok([ParagraphFragment(RunOf(v), None)]))
  {
    if !v.Seq? {
      RunLikeFragment(v, NoBodyOptions, render);
    }
  }

  /** The `:create_table` of `replace_all` does not reach into an array: a column hash
      inside an array needs its own flag, and without it the replacement fails, while
      the same hash on its own becomes a table. */
  lemma ReplaceHashInArray(columns: seq<Column>, options: TableOptions, render: Renderer)
    requires ColumnsOk(columns)
    ensures ReplaceAction(Columns(columns, false, options), render).fragments.Ok?
    ensures ReplaceAction(Seq([Columns(columns, false, options)]), render) == WithBody(Err(MissingContent))
  {
    ColumnsFragment(columns, false, options, BodyOptions(true, None), render);
    MultipleSingle(Columns(columns, false, options), render);
    ColumnsFragment(columns, false, options, NoBodyOptions, render);
  }

  // Every occurrence of the source text

  /** The value a caller's replacement has become once it has been rendered: the
      composer deletes `:create_table` and the table options from every hash it turns
      into a table, and `:content` and `:style` from every hash it turns into a
      paragraph, leaving an empty hash behind. Each entry of a table is rendered as a
      cell, without `:create_table`. */
  function Rendered(v: ContentValue, createTable: bool): (r: ContentValue)
    decreases Size(v), 0
    ensures v.Text? || v.Image? || v.Raw? || v.Nil? || v.Scalar? ==> r == v
    ensures v.Styled? && !createTable ==> r == Columns([], false, NoTableOptions)
    ensures v.Styled? && createTable ==> r == v
    ensures v.Columns? && !(v.createTable || createTable) ==> r == v
    ensures v.Columns? && (v.createTable || createTable) ==>
      && r.Columns? && !r.createTable && r.options == NoTableOptions
      && |r.columns| == |v.columns| && Keys(r.columns) == Keys(v.columns)
      && forall j :: 0 <= j < |v.columns| ==> r.columns[j].value == Rendered(v.columns[j].value, false)
    ensures v.Seq? ==>
      && r.Seq? && |r.items| == |v.items|
      && forall k :: 0 <= k < |v.items| ==> r.items[k] == Rendered(v.items[k], false)
  {
    match v
    case Styled(_, _) => if createTable then v else Columns([], false, NoTableOptions)
    case Columns(columns, ownFlag, _) =>
      if ownFlag || createTable then
        var rendered := RenderedColumns(columns);
        assert Keys(rendered) == Keys(columns);
        Columns(rendered, false, NoTableOptions)
      else v
    case Seq(items) => Seq(RenderedItems(items))
    case _ => v
  }

  /** Each element of an array is rendered without options. */
  function RenderedItems(items: seq<ContentValue>): (r: seq<ContentValue>)
    decreases ItemsSize(items), 1
    ensures |r| == |items|
    ensures forall k :: 0 <= k < |items| ==> r[k] == Rendered(items[k], false)
  {
    if items == [] then []
    else
      assert ItemsSize(items) == Size(items[0]) + ItemsSize(items[1..]);
      var rest := RenderedItems(items[1..]);
      var r := [Rendered(items[0], false)] + rest;
      assert forall k :: 1 <= k < |items| ==> r[k] == rest[k - 1] && items[k] == items[1..][k - 1];
      r
  }

  /** Each column keeps its key, and its value is rendered as cells are, without options. */
  function RenderedColumns(columns: seq<Column>): (r: seq<Column>)
    decreases ColumnsSize(columns), 1
    ensures |r| == |columns|
    ensures forall j :: 0 <= j < |columns| ==> r[j] == Column(columns[j].key, Rendered(columns[j].value, false))
  {
    if columns == [] then []
    else
      assert ColumnsSize(columns) == Size(columns[0].value) + ColumnsSize(columns[1..]);
      var rest := RenderedColumns(columns[1..]);
      var r := [Column(columns[0].key, Rendered(columns[0].value, false))] + rest;
      assert forall j :: 1 <= j < |columns| ==> r[j] == rest[j - 1] && columns[j] == columns[1..][j - 1];
      r
  }

  /** Rendering what a rendering left behind changes nothing more: every key the
      composer deletes is already gone, and rendering keeps the kind of value a
      top-level replacement is, so it keeps the same `:create_table` setting. */
  lemma {:induction false} RenderedIdempotent(v: ContentValue, createTable: bool)
    decreases Size(v)
    ensures Rendered(Rendered(v, createTable), createTable) == Rendered(v, createTable)
    ensures var r := Rendered(v, createTable); (r.Styled? || r.Columns?) <==> (v.Styled? || v.Columns?)
  {
    match v
    case Columns(columns, ownFlag, _) =>
      if ownFlag || createTable {
        var r := Rendered(v, createTable);
        forall j | 0 <= j < |columns|
          ensures Rendered(Rendered(columns[j].value, false), false) == Rendered(columns[j].value, false)
        {
          RenderedIdempotent(columns[j].value, false);
        }
        if createTable {
          assert Rendered(r, createTable).columns == r.columns;
        }
      }
    case Seq(items) =>
      forall k | 0 <= k < |items|
        ensures Rendered(Rendered(items[k], false), false) == Rendered(items[k], false)
      {
        RenderedIdempotent(items[k], false);
      }
      assert Rendered(Rendered(v, createTable), createTable).items == Rendered(v, createTable).items;
    case _ =>
  }

  /** A replacement whose rendering raises. */
  predicate Fails(a: Replacement) {
    a.WithBody? && a.fragments.Err?
  }

  /** `replace_all` as written: the replacement is rendered again for each of the `n`
      occurrences, from the value the previous rendering left behind, until a rendering
      raises. Every occurrence after the first is rendered from what the first rendering
      left behind. The result lists the occurrences that are reached: every one when no
      rendering fails, and otherwise those up to and including the failing one, which
      ends the call; the occurrences after it keep the empty runs they were given. */
  function ReplaceAllAsWritten(v: ContentValue, n: nat, render: Renderer): (r: seq<Replacement>)
    ensures |r| <= n
    ensures n > 0 ==> |r| > 0 && r[0] == ReplaceAction(v, render)
    ensures forall i :: 0 <= i < |r| - 1 ==> !Fails(r[i])
    ensures |r| < n ==> Fails(r[|r| - 1])
    ensures forall i :: 1 <= i < |r| ==> r[i] == ReplaceAction(Rendered(v, v.Styled? || v.Columns?), render)
    decreases n
  {
    if n == 0 then []
    else
      var a := ReplaceAction(v, render);
      if Fails(a) then [a]
      else
        var next := Rendered(v, v.Styled? || v.Columns?);
        RenderedIdempotent(v, v.Styled? || v.Columns?);
        var rest := ReplaceAllAsWritten(next, n - 1, render);
        var r := [a] + rest;
        assert forall i :: 1 <= i < |r| ==> r[i] == rest[i - 1];
        r
  }

  /** `replace_all` as intended: every occurrence is replaced by the rendering of the
      caller's value. */
  function ReplaceAll(v: ContentValue, n: nat, render: Renderer): (r: seq<Replacement>)
    ensures |r| == n
  {
    seq(n, _ => ReplaceAction(v, render))
  }

  /** As intended, every occurrence is replaced alike, so every occurrence succeeds
      exactly when the first one does. */
  lemma ReplaceAllUniform(v: ContentValue, n: nat, render: Renderer)
    ensures forall i :: 0 <= i < n ==> ReplaceAll(v, n, render)[i] == ReplaceAction(v, render)
    ensures forall i :: 0 <= i < n && ReplaceAction(v, render).WithBody? ==>
      (ReplaceAll(v, n, render)[i].fragments.Ok? <==> BodyOk(v, v.Styled? || v.Columns?))
  {
  }

  /** The table of one column holding a list with one styled hash. */
  const StyledListTable: ContentValue :=
    Columns([Column("a", Seq([Styled("x", StyleEntry(Some("S"), false))]))], false, NoTableOptions)

  /** The same table after its first rendering: the styled hash is now empty. */
  const EmptiedTable: ContentValue :=
    Columns([Column("a", Seq([Columns([], false, NoTableOptions)]))], false, NoTableOptions)

  lemma StyledListRendered()
    ensures Rendered(StyledListTable, true) == EmptiedTable
  {
    assert RenderedItems([Styled("x", StyleEntry(Some("S"), false))]) == [Columns([], false, NoTableOptions)];
  }

  /** The table renders, and the emptied one does not: an empty hash in a cell is
      neither a table nor a hash with `:content`. */
  lemma StyledListOk()
    ensures BodyOk(StyledListTable, true)
    ensures !BodyOk(EmptiedTable, true)
  {
    var columns := StyledListTable.columns;
    assert ColumnsOk(columns) by {
      forall j, e | 0 <= j < |columns| && e in ColumnEntries(columns[j].value)
        ensures CellOk(e)
      {
        assert e == Styled("x", StyleEntry(Some("S"), false));
      }
    }
    var emptied := EmptiedTable.columns;
    var e := Columns([], false, NoTableOptions);
    assert !CellOk(e);
    assert e in ColumnEntries(emptied[0].value);
  }

  /** As written, the second occurrence of a table whose cell holds a styled hash fails:
      the first rendering emptied that hash. The failure ends the call, so a third
      occurrence is never reached. As intended, every occurrence renders like the first. */
  lemma SecondOccurrenceFails(render: Renderer)
    ensures |ReplaceAllAsWritten(StyledListTable, 2, render)| == 2
    ensures ReplaceAllAsWritten(StyledListTable, 2, render)[0].fragments.Ok?
    ensures ReplaceAllAsWritten(StyledListTable, 2, render)[1].WithBody?
    ensures ReplaceAllAsWritten(StyledListTable, 2, render)[1].fragments.Err?
    ensures |ReplaceAllAsWritten(StyledListTable, 3, render)| == 2
    ensures ReplaceAll(StyledListTable, 2, render)[1].fragments.Ok?
  {
    StyledListRendered();
    StyledListOk();
    AsWrittenTwice(StyledListTable, render);
    var emptied := ReplaceAction(EmptiedTable, render);
    assert Fails(emptied);
    assert ReplaceAllAsWritten(EmptiedTable, 2, render) == [emptied];
    assert ReplaceAllAsWritten(StyledListTable, 3, render)
      == [ReplaceAction(StyledListTable, render)] + ReplaceAllAsWritten(EmptiedTable, 2, render);
    assert ReplaceAll(StyledListTable, 2, render)[1] == ReplaceAction(StyledListTable, render);
  }

  /** As written, when the first occurrence renders, the second is replaced by the
      rendering of what the first rendering left behind. */
  lemma AsWrittenTwice(v: ContentValue, render: Renderer)
    requires !Fails(ReplaceAction(v, render))
    ensures ReplaceAllAsWritten(v, 2, render)
      == [ReplaceAction(v, render), ReplaceAction(Rendered(v, v.Styled? || v.Columns?), render)]
  {
    var r := ReplaceAllAsWritten(v, 2, render);
    assert r == [ReplaceAction(v, render)] + ReplaceAllAsWritten(Rendered(v, v.Styled? || v.Columns?), 1, render);
  }

  const SkipHeader: TableOptions := TableOptions(None, None, None, None, true)

  /** Rendering leaves a column of strings as it is. */
  lemma {:induction false} RenderedTextColumns(columns: seq<Column>)
    requires forall j :: 0 <= j < |columns| ==> columns[j].value.Text?
    ensures RenderedColumns(columns) == columns
  {
    if columns != [] {
      RenderedTextColumns(columns[1..]);
      assert [columns[0]] + columns[1..] == columns;
    }
  }

  /** As written, the second occurrence of a table of strings is built without any of
      the caller's table options: the first rendering deleted them from the caller's
      hash. With `:skip_header`, the second occurrence gets a header row. */
  lemma SecondOccurrenceGetsHeader(columns: seq<Column>, options: TableOptions, render: Renderer)
    requires forall j :: 0 <= j < |columns| ==> columns[j].value.Text?
    ensures var r := ReplaceAllAsWritten(Columns(columns, false, options), 2, render);
      && |r| == 2
      && TableFragment(columns, options, render).Ok?
      && TableFragment(columns, NoTableOptions, render).Ok?
      && r[0] == WithBody(Ok([TableFragment(columns, options, render).value]))
      && r[1] == WithBody(Ok([TableFragment(columns, NoTableOptions, render).value]))
  {
    TextColumnsOk(columns);
    ReplaceColumns(columns, false, options, render);
    ReplaceColumns(columns, false, NoTableOptions, render);
    AsWrittenTwice(Columns(columns, false, options), render);
    RenderedTextColumns(columns);
  }

  /** ... which reads back with the header row `a`, where the first occurrence's table
      goes from the grid straight to its data rows. */
  lemma HeaderOnlyOnSecond(render: Renderer)
    ensures var columns := [Column("a", Text("1"))];
      var first := TableFragment(columns, SkipHeader, render).value;
      var second := TableFragment(columns, NoTableOptions, render).value;
      var head := TableOpen + render(ResolveSettings(NoTableOptions).properties);
      && TableFragment(columns, SkipHeader, render).Ok?
      && TableFragment(columns, NoTableOptions, render).Ok?
      && |head| <= |first| && |head| <= |second|
      && ResolveSettings(SkipHeader).properties == ResolveSettings(NoTableOptions).properties
      && ParseGrid(first[|head|..]) == Some((None, DataRowsXml(TableRows(columns, ResolveSettings(SkipHeader), render)) + TableClose))
      && ParseGrid(second[|head|..]).Some?
      && ParseHeaderRow(ParseGrid(second[|head|..]).value.1)
           == Some((["a"], DataRowsXml(TableRows(columns, ResolveSettings(NoTableOptions), render)) + TableClose))
  {
    var columns := [Column("a", Text("1"))];
    TextColumnsOk(columns);
    TableReadsBack(columns, SkipHeader, render);
    TableReadsBack(columns, NoTableOptions, render);
    assert Keys(columns) == ["a"];
  }
}

=== FILE: results.dfy ===
/** Failure-compatible wrappers used throughout the composer model. */
module Results {

  /** An optional value; `None` plays the part of Ruby's `nil`. */
  datatype Option<+T> = None | Some(value: T) {
    predicate IsFailure() {
      None?
    }

    function PropagateFailure<U>(): Option<U>
      requires None?
    {
      None
    }

    function Extract(): T
      requires Some?
    {
      value
    }

    function GetOr(default: T): T {
      match this
      case Some(v) => v
      case None => default
    }
  }

  /** The two exceptions the composer can raise while rendering content. */
  datatype ComposeError =
      /** A hash that is not rendered as a table reaches `create_paragraph_fragment`,
          which reads its `:content` entry, finds nothing, and hands `nil` to the
          XML escaper, which rejects it. */
    | MissingContent
      /** A non-table XML element is the item of a table cell: `create_body_fragments`
          returns it as a bare string and the cell builder calls `join` on it. */
    | BareFragmentInCell

  datatype Result<+T> = Ok(value: T) | Err(error: ComposeError) {
    predicate IsFailure() {
      Err?
    }

    function PropagateFailure<U>(): Result<U>
      requires Err?
    {
      Err(error)
    }

    function Extract(): T
      requires Ok?
    {
      value
    }
  }
}

=== FILE: tables.dfy ===
/** Table option resolution and the table skeleton: properties, grid, header rows and
    data rows, as `create_table_fragment` and `create_table_fragment_from_html` lay
    them out. The content of data cells is produced by the composer. */
module Tables {
  import opened Results
  import opened Xml
  import opened Content

  /** What a table builder works from once its options are resolved: the properties
      object it prints, the widths it puts in the grid and in each cell, the paragraph
      styles it hands to each cell, and whether the header row is left out. */
  datatype TableSettings = TableSettings(
    properties: TableProperties,
    widths: Option<ColumnList>,
    styles: Option<ColumnList>,
    skipHeader: bool)

  /** The widths and styles a table uses are those its printed properties carry. */
  predicate Consistent(settings: TableSettings) {
    settings.widths == settings.properties.columnWidths && settings.styles == settings.properties.columnStyles
  }

  /** Option resolution of `create_table_fragment`: a `TableProperties` object wins over
      the discrete options; otherwise one is built from them. */
  function ResolveSettings(opts: TableOptions): (r: TableSettings)
    ensures Consistent(r)
    ensures r.skipHeader == opts.skipHeader
    ensures opts.tableProperties.Some? ==> r.properties == opts.tableProperties.value
    ensures opts.tableProperties.None? ==>
      r.properties.tableStyle == opts.tableStyle && r.widths == opts.columnWidths && r.styles == opts.columnStyles
  {
    match opts.tableProperties
    case Some(p) => TableSettings(p, p.columnWidths, p.columnStyles, opts.skipHeader)
    case None =>
      var p := TableProperties(opts.tableStyle, opts.columnWidths, opts.columnStyles, false, false);
      TableSettings(p, opts.columnWidths, opts.columnStyles, opts.skipHeader)
  }

  /** Option resolution of `create_table_fragment_from_html` as written: the width
      assignment is `widths || styles = ...`, so the styles are only read when no widths
      are given, and then they stand in for the widths as well. */
  function HtmlSettings(opts: TableOptions): (r: TableSettings)
    ensures r.skipHeader == opts.skipHeader
    ensures opts.tableProperties.Some? ==> r.properties == opts.tableProperties.value
    ensures opts.tableProperties.None? ==> Consistent(r) && r.properties.tableStyle == opts.tableStyle
    ensures ResolveSettings(opts).widths.Some? ==> r.widths == ResolveSettings(opts).widths && r.styles.None?
    ensures ResolveSettings(opts).widths.None? ==> r.widths == r.styles == ResolveSettings(opts).styles
  {
    match opts.tableProperties
    case Some(p) =>
      if p.columnWidths.Some? then TableSettings(p, p.columnWidths, None, opts.skipHeader)
      else TableSettings(p, p.columnStyles, p.columnStyles, opts.skipHeader)
    case None =>
      var widths := if opts.columnWidths.Some? then opts.columnWidths else opts.columnStyles;
      var styles := if opts.columnWidths.Some? then None else opts.columnStyles;
      TableSettings(TableProperties(opts.tableStyle, widths, styles, false, false), widths, styles, opts.skipHeader)
  }

  /** The two resolutions agree exactly when no column styles are given. */
  lemma HtmlSettingsAgree(opts: TableOptions)
    ensures HtmlSettings(opts) == ResolveSettings(opts) <==> ResolveSettings(opts).styles.None?
  {
  }

  /** The `j`-th entry of an optional list, `nil` when the list is absent, too short,
      or holds `nil` there. */
  function Nth(list: Option<ColumnList>, j: nat): (r: Option<string>)
    ensures r.Some? <==> list.Some? && j < |list.value| && list.value[j].Some?
    ensures r.Some? ==> r == list.value[j]
  {
    if list.Some? && j < |list.value| then list.value[j] else None
  }

  /** The widths as the grid prints them: interpolating a `nil` entry prints nothing. */
  function GridText(list: Option<ColumnList>): (r: Option<seq<string>>)
    ensures r.Some? <==> list.Some?
    ensures r.Some? ==> |r.value| == |list.value|
    ensures r.Some? ==> forall k :: 0 <= k < |r.value| ==> r.value[k] == list.value[k].GetOr("")
  {
    match list
    case None => None
    case Some(entries) => Some(seq(|entries|, k requires 0 <= k < |entries| => entries[k].GetOr("")))
  }

  const CellPropertiesOpen: string := "<w:tcPr>" + "<w:tcW" + " w:type=\"dxa\"" + " w:w=\""
  const CellPropertiesClose: string := "\"/>" + "</w:tcPr>"

  /** The `tcPr` of a data cell: present exactly when the cell has a width. */
  function CellProperties(width: Option<string>): (r: string)
    ensures r == "" <==> width.None?
    ensures width.Some? ==> StartsWith(r, CellPropertiesOpen) && r[|CellPropertiesOpen|..] == width.value + CellPropertiesClose
  {
    if width.Some? then
      var r := CellPropertiesOpen + width.value + CellPropertiesClose;
      assert r[..|CellPropertiesOpen|] == CellPropertiesOpen;
      r
    else ""
  }

  // The table skeleton

  /** A table as its builder lays it out: the printed properties, the optional grid,
      the header rows (raw header texts) and the data rows (finished cells). */
  datatype TableMarkup = TableMarkup(
    properties: string,
    grid: Option<seq<string>>,
    headerRows: seq<seq<string>>,
    dataRows: seq<seq<string>>)

  const TableOpen: string := "<w:tbl>"
  const TableClose: string := "</w:tbl>"
  const RowOpen: string := "<w:tr>"
  const RowClose: string := "</w:tr>"
  const GridOpen: string := "<w:tblGrid>"
  const GridClose: string := "</w:tblGrid>"
  const GridColOpen: string := "<w:gridCol w:w=\""
  const GridColClose: string := "\"/>"
  const HeaderCellOpen: string := "<w:tc><w:p><w:r><w:t>"
  const HeaderCellClose: string := "</w:t></w:r></w:p></w:tc>"

  function GridColsXml(widths: seq<string>): string {
    if widths == [] then "" else GridColOpen + widths[0] + GridColClose + GridColsXml(widths[1..])
  }

  function GridXml(grid: Option<seq<string>>): string {
    if grid.Some? then GridOpen + GridColsXml(grid.value) + GridClose else ""
  }

  /** Header cells hold the escaped header text in a bare run (no `xml:space`). */
  function HeaderCellsXml(headers: seq<string>): string {
    if headers == [] then "" else HeaderCellOpen + Escape(headers[0]) + HeaderCellClose + HeaderCellsXml(headers[1..])
  }

  function HeaderRowXml(headers: seq<string>): string {
    RowOpen + HeaderCellsXml(headers) + RowClose
  }

  function HeaderRowsXml(rows: seq<seq<string>>): string {
    if rows == [] then "" else HeaderRowXml(rows[0]) + HeaderRowsXml(rows[1..])
  }

  function DataRowsXml(rows: seq<seq<string>>): string {
    if rows == [] then "" else RowOpen + Join(rows[0]) + RowClose + DataRowsXml(rows[1..])
  }

  /** The table fragment: `<w:tbl>`, the properties, grid, header rows, data rows, `</w:tbl>`. */
  function RenderTable(t: TableMarkup): (r: string)
    ensures StartsWith(r, TableOpen + t.properties) && EndsWith(r, TableClose)
  {
    var body := GridXml(t.grid) + HeaderRowsXml(t.headerRows) + DataRowsXml(t.dataRows);
    var r := TableOpen + t.properties + body + TableClose;
    assert r[..|TableOpen + t.properties|] == TableOpen + t.properties;
    assert r[|r| - |TableClose|..] == TableClose;
    r
  }

  // Decoding the grid and the header row

  function ParseGridCols(s: string): Option<(seq<string>, string)>
    decreases |s|
  {
    if StartsWith(s, GridColOpen) then
      var (width, s1) := SplitAt(s[|GridColOpen|..], '"');
      var s2 :- Expect(s1, GridColClose);
      var (widths, s3) :- ParseGridCols(s2);
      Some(([width] + widths, s3))
    else Some(([], s))
  }

  /** Reads an optional grid: its widths, in order, and what follows it. */
  function ParseGrid(s: string): Option<(Option<seq<string>>, string)> {
    if StartsWith(s, GridOpen) then
      var (widths, s1) :- ParseGridCols(s[|GridOpen|..]);
      var s2 :- Expect(s1, GridClose);
      Some((Some(widths), s2))
    else Some((None, s))
  }

  function ParseHeaderCells(s: string): Option<(seq<string>, string)>
    decreases |s|
  {
    if StartsWith(s, HeaderCellOpen) then
      var (escaped, s1) := SplitAt(s[|HeaderCellOpen|..], '<');
      var s2 :- Expect(s1, HeaderCellClose);
      var (headers, s3) :- ParseHeaderCells(s2);
      Some(([Unescape(escaped)] + headers, s3))
    else Some(([], s))
  }

  /** Reads a header row back into the header texts it shows. */
  function ParseHeaderRow(s: string): Option<(seq<string>, string)> {
    var s1 :- Expect(s, RowOpen);
    var (headers, s2) :- ParseHeaderCells(s1);
    var s3 :- Expect(s2, RowClose);
    Some((headers, s3))
  }

  lemma {:induction false} GridColsRoundTrip(widths: seq<string>, rest: string)
    requires forall k :: 0 <= k < |widths| ==> '"' !in widths[k]
    requires !StartsWith(rest, GridColOpen)
    ensures ParseGridCols(GridColsXml(widths) + rest) == Some((widths, rest))
  {
    if widths != [] {
      var tail := GridColsXml(widths[1..]) + rest;
      var after := widths[0] + (GridColClose + tail);
      var s := GridColOpen + after;
      assert GridColsXml(widths) + rest == s;
      assert StartsWith(s, GridColOpen) && s[|GridColOpen|..] == after by { ExpectLiteral(GridColOpen, after); }
      assert SplitAt(after, '"') == (widths[0], GridColClose + tail) by { SplitAtFirst(widths[0], '"', GridColClose + tail); }
      assert Expect(GridColClose + tail, GridColClose) == Some(tail) by { ExpectLiteral(GridColClose, tail); }
      assert ParseGridCols(tail) == Some((widths[1..], rest)) by { GridColsRoundTrip(widths[1..], rest); }
      assert [widths[0]] + widths[1..] == widths;
    } else {
      assert GridColsXml(widths) + rest == rest;
    }
  }

  /** The grid is read back as exactly the widths it was made from, in order, and is
      absent exactly when no widths were given. */
  lemma GridRoundTrip(grid: Option<seq<string>>, rest: string)
    requires grid.Some? ==> forall k :: 0 <= k < |grid.value| ==> '"' !in grid.value[k]
    requires !StartsWith(rest, GridOpen)
    ensures ParseGrid(GridXml(grid) + rest) == Some((grid, rest))
  {
    if grid.Some? {
      var tail := GridClose + rest;
      var s := GridOpen + (GridColsXml(grid.value) + tail);
      assert GridXml(grid) + rest == s;
      assert StartsWith(s, GridOpen) && s[|GridOpen|..] == GridColsXml(grid.value) + tail by {
        ExpectLiteral(GridOpen, GridColsXml(grid.value) + tail);
      }
      assert !StartsWith(tail, GridColOpen) by {
        assert tail[1] != GridColOpen[1];
        assert |tail| < |GridColOpen| || tail[..|GridColOpen|][1] != GridColOpen[1];
      }
      GridColsRoundTrip(grid.value, tail);
      ExpectLiteral(GridClose, rest);
    } else {
      assert GridXml(grid) + rest == rest;
    }
  }

  lemma HeaderCellsStep(s: string, escaped: string, tail: string, headers: seq<string>, rest: string)
    requires StartsWith(s, HeaderCellOpen)
    requires SplitAt(s[|HeaderCellOpen|..], '<') == (escaped, HeaderCellClose + tail)
    requires Expect(HeaderCellClose + tail, HeaderCellClose) == Some(tail)
    requires ParseHeaderCells(tail) == Some((headers, rest))
    ensures ParseHeaderCells(s) == Some(([Unescape(escaped)] + headers, rest))
  {
  }

  lemma Regroup3(a: string, b: string, c: string, d: string)
    ensures a + b + c + d == a + (b + (c + d))
  {
  }

  lemma Regroup4(a: string, b: string, c: string, d: string, e: string)
    ensures a + b + c + d + e == a + (b + (c + (d + e)))
  {
  }

  lemma {:induction false} HeaderCellsRoundTrip(headers: seq<string>, rest: string)
    requires !StartsWith(rest, HeaderCellOpen)
    ensures ParseHeaderCells(HeaderCellsXml(headers) + rest) == Some((headers, rest))
  {
    if headers != [] {
      var tail := HeaderCellsXml(headers[1..]) + rest;
      var after := Escape(headers[0]) + (HeaderCellClose + tail);
      var s := HeaderCellOpen + after;
      assert HeaderCellsXml(headers) + rest == s by {
        Regroup4(HeaderCellOpen, Escape(headers[0]), HeaderCellClose, HeaderCellsXml(headers[1..]), rest);
      }
      assert StartsWith(s, HeaderCellOpen) && s[|HeaderCellOpen|..] == after by { ExpectLiteral(HeaderCellOpen, after); }
      assert SplitAt(after, '<') == (Escape(headers[0]), HeaderCellClose + tail) by {
        SplitAtFirst(Escape(headers[0]), '<', HeaderCellClose + tail);
      }
      assert Expect(HeaderCellClose + tail, HeaderCellClose) == Some(tail) by { ExpectLiteral(HeaderCellClose, tail); }
      assert ParseHeaderCells(tail) == Some((headers[1..], rest)) by { HeaderCellsRoundTrip(headers[1..], rest); }
      HeaderCellsStep(s, Escape(headers[0]), tail, headers[1..], rest);
      EscapeRoundTrip(headers[0]);
      assert [headers[0]] + headers[1..] == headers;
    } else {
      assert HeaderCellsXml(headers) + rest == rest;
    }
  }

  /** A header row is read back as exactly the header texts it was made from, in order:
      one cell per header, each holding the escaped text. */
  lemma HeaderRowRoundTrip(headers: seq<string>, rest: string)
    ensures ParseHeaderRow(HeaderRowXml(headers) + rest) == Some((headers, rest))
  {
    var tail := RowClose + rest;
    var s := RowOpen + (HeaderCellsXml(headers) + tail);
    assert HeaderRowXml(headers) + rest == s by {
      Regroup3(RowOpen, HeaderCellsXml(headers), RowClose, rest);
    }
    assert Expect(s, RowOpen) == Some(HeaderCellsXml(headers) + tail) by {
      ExpectLiteral(RowOpen, HeaderCellsXml(headers) + tail);
    }
    assert ParseHeaderCells(HeaderCellsXml(headers) + tail) == Some((headers, tail)) by {
      NotHeaderCellAtRowClose(rest);
      HeaderCellsRoundTrip(headers, tail);
    }
    assert Expect(tail, RowClose) == Some(rest) by {
      ExpectLiteral(RowClose, rest);
    }
  }

  lemma NotHeaderCellAtRowClose(rest: string)
    ensures !StartsWith(RowClose + rest, HeaderCellOpen)
  {
    var tail := RowClose + rest;
    assert tail[1] == '/' && HeaderCellOpen[1] == 'w';
    assert |tail| < |HeaderCellOpen| || tail[..|HeaderCellOpen|][1] != HeaderCellOpen[1];
  }

  lemma NotGridAfterRow(s: string)
    requires StartsWith(s, RowOpen)
    ensures !StartsWith(s, GridOpen)
  {
    assert s[4] == RowOpen[4] == 'r' && GridOpen[4] == 'b';
    assert |s| < |GridOpen| || s[..|GridOpen|][4] != GridOpen[4];
  }

  lemma NotGridAtTableClose()
    ensures !StartsWith(TableClose, GridOpen)
  {
    assert |TableClose| < |GridOpen|;
  }

  /** What follows the grid: the header rows, the data rows and `</w:tbl>`. */
  function AfterGrid(t: TableMarkup): string {
    HeaderRowsXml(t.headerRows) + DataRowsXml(t.dataRows) + TableClose
  }

  lemma AfterGridNotGrid(t: TableMarkup)
    ensures !StartsWith(AfterGrid(t), GridOpen)
  {
    var h := HeaderRowsXml(t.headerRows);
    var d := DataRowsXml(t.dataRows);
    if t.headerRows != [] {
      var row := t.headerRows[0];
      assert StartsWith(h, RowOpen) by {
        StartsWithConcat(RowOpen, HeaderCellsXml(row));
        StartsWithExtend(RowOpen + HeaderCellsXml(row), RowClose, RowOpen);
        StartsWithExtend(HeaderRowXml(row), HeaderRowsXml(t.headerRows[1..]), RowOpen);
      }
      StartsWithExtend(h, d, RowOpen);
      StartsWithExtend(h + d, TableClose, RowOpen);
      NotGridAfterRow(AfterGrid(t));
    } else if t.dataRows != [] {
      var row := t.dataRows[0];
      assert StartsWith(d, RowOpen) by {
        StartsWithConcat(RowOpen, Join(row));
        StartsWithExtend(RowOpen + Join(row), RowClose, RowOpen);
        StartsWithExtend(RowOpen + Join(row) + RowClose, DataRowsXml(t.dataRows[1..]), RowOpen);
      }
      assert h + d == d;
      StartsWithExtend(d, TableClose, RowOpen);
      NotGridAfterRow(AfterGrid(t));
    } else {
      assert h + d + TableClose == TableClose;
      NotGridAtTableClose();
    }
  }

  lemma RegroupTable(head: string, g: string, h: string, d: string, close: string)
    ensures head + (g + h + d) + close == head + (g + (h + d + close))
    ensures (head + (g + (h + d + close)))[|head|..] == g + (h + d + close)
  {
  }

  lemma RenderTableParts(t: TableMarkup)
    ensures RenderTable(t) == TableOpen + t.properties + (GridXml(t.grid) + AfterGrid(t))
    ensures RenderTable(t)[|TableOpen + t.properties|..] == GridXml(t.grid) + AfterGrid(t)
  {
    RegroupTable(TableOpen + t.properties, GridXml(t.grid), HeaderRowsXml(t.headerRows), DataRowsXml(t.dataRows), TableClose);
  }

  /** After the opening tag and the printed properties, a rendered table reads back as
      its grid (exactly the widths it was given, or none) followed by its rows ... */
  lemma RenderedGrid(t: TableMarkup)
    requires QuoteFree(t.grid)
    ensures ParseGrid(RenderTable(t)[|TableOpen + t.properties|..]) == Some((t.grid, AfterGrid(t)))
  {
    RenderTableParts(t);
    AfterGridNotGrid(t);
    GridRoundTrip(t.grid, AfterGrid(t));
  }

  /** ... and a single header row reads back as exactly its header texts, followed by
      the data rows. */
  lemma RenderedHeader(t: TableMarkup)
    requires |t.headerRows| == 1
    ensures ParseHeaderRow(AfterGrid(t)) == Some((t.headerRows[0], DataRowsXml(t.dataRows) + TableClose))
  {
    var rest := DataRowsXml(t.dataRows) + TableClose;
    assert HeaderRowsXml(t.headerRows) == HeaderRowXml(t.headerRows[0]) + HeaderRowsXml(t.headerRows[1..]);
    assert t.headerRows[1..] == [];
    assert AfterGrid(t) == HeaderRowXml(t.headerRows[0]) + rest;
    HeaderRowRoundTrip(t.headerRows[0], rest);
  }

  predicate QuoteFree(widths: Option<seq<string>>) {
    widths.Some? ==> forall k :: 0 <= k < |widths.value| ==> '"' !in widths.value[k]
  }

  /** A rendered table with at most one header row reads back as its grid, then its
      header texts when there is a header row, then the data rows. */
  lemma MarkupReadsBack(t: TableMarkup)
    requires QuoteFree(t.grid) && |t.headerRows| <= 1
    ensures ParseGrid(RenderTable(t)[|TableOpen + t.properties|..]) == Some((t.grid, AfterGrid(t)))
    ensures |t.headerRows| == 1 ==> ParseHeaderRow(AfterGrid(t)) == Some((t.headerRows[0], DataRowsXml(t.dataRows) + TableClose))
    ensures t.headerRows == [] ==> AfterGrid(t) == DataRowsXml(t.dataRows) + TableClose
  {
    RenderedGrid(t);
    if |t.headerRows| == 1 {
      RenderedHeader(t);
    } else {
      NoHeaderAfterGrid(t);
    }
  }

  lemma NoHeaderAfterGrid(t: TableMarkup)
    requires t.headerRows == []
    ensures AfterGrid(t) == DataRowsXml(t.dataRows) + TableClose
  {
    assert HeaderRowsXml(t.headerRows) == "";
  }
}

=== FILE: xml.dfy ===
/** Character-level helpers: prefix/suffix tests, joining, and the special-character
    encoding that the composer applies to every piece of user text. */
module Xml {
  import opened Results

  predicate StartsWith(s: string, prefix: string) {
    |prefix| <= |s| && s[..|prefix|] == prefix
  }

  predicate EndsWith(s: string, suffix: string) {
    |suffix| <= |s| && s[|s| - |suffix|..] == suffix
  }

  lemma StartsWithConcat(prefix: string, s: string)
    ensures StartsWith(prefix + s, prefix)
  {
    assert (prefix + s)[..|prefix|] == prefix;
  }

  lemma StartsWithExtend(s: string, more: string, prefix: string)
    requires StartsWith(s, prefix)
    ensures StartsWith(s + more, prefix)
  {
    assert (s + more)[..|prefix|] == s[..|prefix|];
  }

  lemma StartsWithShorter(s: string, a: string, b: string)
    requires StartsWith(s, a + b)
    ensures StartsWith(s, a)
  {
    assert s[..|a|] == (a + b)[..|a|];
  }

  lemma EndsWithPrepend(a: string, s: string, suffix: string)
    requires EndsWith(s, suffix)
    ensures EndsWith(a + s, suffix)
  {
    assert (a + s)[|a + s| - |suffix|..] == s[|s| - |suffix|..];
  }

  /** A suffix of the middle part, followed by the last part, ends the whole. */
  lemma EndsWithConcat(a: string, c: string, suffix: string, b: string)
    requires EndsWith(c, suffix)
    ensures EndsWith(a + c + b, suffix + b)
  {
    var s := a + c + b;
    assert s[|s| - |suffix + b|..] == c[|c| - |suffix|..] + b;
  }

  /** Concatenation of a list of fragments, in order (Ruby's `Array#join`). */
  function Join(parts: seq<string>): (r: string)
    ensures parts == [] ==> r == ""
    ensures |parts| == 1 ==> r == parts[0]
  {
    if parts == [] then "" else parts[0] + Join(parts[1..])
  }

  lemma {:induction false} JoinAppend(a: seq<string>, b: seq<string>)
    ensures Join(a + b) == Join(a) + Join(b)
  {
    if a == [] {
      assert a + b == b;
    } else {
      assert (a + b)[1..] == a[1..] + b;
      JoinAppend(a[1..], b);
    }
  }

  /** The encoding of one character by libxml2's `xmlEncodeSpecialChars`,
      which Nokogiri's `encode_special_chars` calls. */
  function EncodeChar(c: char): string {
    if c == '<' then "&lt;"
    else if c == '>' then "&gt;"
    else if c == '&' then "&amp;"
    else if c == '"' then "&quot;"
    else if c == '\r' then "&#13;"
    else [c]
  }

  /** `encode_special_chars`: the text as it appears inside a `<w:t>` element. */
  function Escape(s: string): (r: string)
    ensures '<' !in r && '"' !in r
    ensures |s| <= |r|
  {
    if s == [] then "" else EncodeChar(s[0]) + Escape(s[1..])
  }

  /** Decoding of the five entities `Escape` produces; any other character stands for itself. */
  function Unescape(t: string): string
    decreases |t|
  {
    if t == [] then ""
    else if StartsWith(t, "&lt;") then "<" + Unescape(t[4..])
    else if StartsWith(t, "&gt;") then ">" + Unescape(t[4..])
    else if StartsWith(t, "&amp;") then "&" + Unescape(t[5..])
    else if StartsWith(t, "&quot;") then "\"" + Unescape(t[6..])
    else if StartsWith(t, "&#13;") then "\r" + Unescape(t[5..])
    else [t[0]] + Unescape(t[1..])
  }

  lemma UnescapePlain(c: char, rest: string)
    requires EncodeChar(c) == [c]
    ensures Unescape([c] + rest) == [c] + Unescape(rest)
  {
    var t := [c] + rest;
    assert c != '&';
    assert t[0] == c && t[1..] == rest;
    assert !StartsWith(t, "&lt;") && !StartsWith(t, "&gt;") && !StartsWith(t, "&amp;");
    assert !StartsWith(t, "&quot;") && !StartsWith(t, "&#13;");
  }

  lemma UnescapeEntity(entity: string, c: char, rest: string)
    requires
      || (entity == "&lt;" && c == '<')
      || (entity == "&gt;" && c == '>')
      || (entity == "&amp;" && c == '&')
      || (entity == "&quot;" && c == '"')
      || (entity == "&#13;" && c == '\r')
    ensures Unescape(entity + rest) == [c] + Unescape(rest)
  {
    var t := entity + rest;
    assert t[..|entity|] == entity && t[|entity|..] == rest;
    assert t[1] == entity[1];
  }

  lemma UnescapeEncodedChar(c: char, rest: string)
    ensures Unescape(EncodeChar(c) + rest) == [c] + Unescape(rest)
  {
    if c == '<' || c == '>' || c == '&' || c == '"' || c == '\r' {
      UnescapeEntity(EncodeChar(c), c, rest);
    } else {
      UnescapePlain(c, rest);
    }
  }

  /** Escaping loses nothing: the original text is recovered from the markup. */
  lemma {:induction false} EscapeRoundTrip(s: string)
    ensures Unescape(Escape(s)) == s
  {
    if s != [] {
      UnescapeEncodedChar(s[0], Escape(s[1..]));
      EscapeRoundTrip(s[1..]);
    }
  }

  // Decoding helpers

  /** The rest of `s` after `literal`, if `s` starts with it. */
  function Expect(s: string, literal: string): (r: Option<string>)
    ensures r.Some? <==> StartsWith(s, literal)
    ensures r.Some? ==> |r.value| == |s| - |literal|
  {
    if StartsWith(s, literal) then Some(s[|literal|..]) else None
  }

  /** Splits `s` before the first occurrence of `c`. */
  function SplitAt(s: string, c: char): (r: (string, string))
    ensures r.0 + r.1 == s && c !in r.0
    ensures r.1 == [] || r.1[0] == c
  {
    if s == [] then ("", "")
    else if s[0] == c then ("", s)
    else
      var (a, b) := SplitAt(s[1..], c);
      assert [s[0]] + (a + b) == s;
      ([s[0]] + a, b)
  }

  lemma ExpectLiteral(literal: string, rest: string)
    ensures Expect(literal + rest, literal) == Some(rest)
  {
    var s := literal + rest;
    assert s[..|literal|] == literal && s[|literal|..] == rest;
  }

  lemma {:induction false} SplitAtFirst(x: string, c: char, rest: string)
    requires c !in x && rest != [] && rest[0] == c
    ensures SplitAt(x + rest, c) == (x, rest)
  {
    if x == [] {
      assert x + rest == rest;
    } else {
      assert (x + rest)[1..] == x[1..] + rest;
      SplitAtFirst(x[1..], c, rest);
      assert [x[0]] + x[1..] == x;
    }
  }

}
